=== FILE: README.md ===
# Study-material text transformations, in Dafny

`tiagemini.py` turns a PDF into study material. The model covers its four pure
text transformations, written as functions over `seq<char>`:

- **Answer-key parser** `processar_gabarito` (module `AnswerKey`). It scans
  the question block line by line. It remembers the digits of the latest
  question line (`1. ...`). For every option line (`a) ...`) that mentions
  `correta`, it emits `"<digits>. <LETTER>"`. The module also covers the two
  ways the key is written out: joined by `<br>` for the report, and joined
  by newlines under the `=== GABARITO ===` banner for the answer-key file.
- **Marker stripper** `re.sub(r'\s*\(correta\)', '', ...)` (module
  `Markers`). It removes every lower-case `(correta)` together with the
  whitespace in front of it. The scan goes left to right, and matches do
  not overlap.
- **Pipe-table transcoder** `processar_tabelas_markdown` and its inner
  `substituir_tabela` (module `Tables`). A hand-written scanner reproduces
  what `padrao_tabela.sub` does. At each position it tries the `\n\n`
  alternative first, then `^`. A match takes the greedy run of
  newline-terminated lines that hold a `|`. The match is replaced by the
  HTML table built from its stripped lines, or it stops with the
  `IndexError` the Python code would raise. Otherwise one character is
  copied.
- **Question presenter** `formatar_questoes_para_html` (module
  `Presenter`). Each stripped line becomes an enunciation, an option or a
  paragraph. A counter renumbers the questions 1, 2, … and closes each
  inner `<ul>`. The output is modelled as a sequence of fragments, each
  rendered to a fixed piece of HTML.

`Text` holds the Python string behaviour these rely on: `strip`, `split`,
`join`, `str(n)`, and the classes `\s` and `\d`. `Wrappers` holds `Option`
and `Result`.

Every operation has a partner:

- The parser has a reference definition ("latest question line before each
  marked option"), proved equal to the scan.
- The stripper has an if-and-only-if that says when it leaves the text
  unchanged.
- The table builder has a writer (header, separator and rows written out as
  Markdown) that it inverts.
- The scanner has an if-and-only-if that says when the text comes through
  unchanged.
- The presenter has an erasure that gives back the lines it was fed.
- `split`/`join` and `str(n)` have round trips.

## Model

| member | source | states |
|---|---|---|
| `AnswerKey.QuestionNumber` | tiagemini.py:81-83 | a captured question number is made of digits only and is the whole digit run the line starts with, followed by `.` and a whitespace character |
| `AnswerKey.QuestionNumberMatches` | tiagemini.py:81 | `^(\d+)\.\s` matches exactly when the line starts with one or more digits, a period and a whitespace character |
| `AnswerKey.OccursIgnoringCase` | tiagemini.py:84 | the case-insensitive search for `correta` succeeds exactly when the word starts at some position of the text |
| `AnswerKey.MarkedLetter` | tiagemini.py:84-86 | a marked option gives an upper-case letter A–D, the first character of the line up to case |
| `AnswerKey.MarkedLetterMatches` | tiagemini.py:84 | the option pattern matches exactly when the line is a letter a–d or A–D, `)`, whitespace, and `correta` in any case somewhere from index 3 on |
| `AnswerKey.IncorretaIsMarked` | tiagemini.py:84 | since both parentheses are optional, `a) incorreta` counts as marking option A |
| `AnswerKey.ClassifyRecordsBothMatches` | tiagemini.py:80-86 | no stripped line matches both patterns, so a line's kind records the outcome of each test and the captured digits or letter |
| `AnswerKey.ScanKeyWellFormed` | tiagemini.py:85-87 | every entry emitted is digits, `". "`, and a letter A–D |
| `AnswerKey.ParseAnswerKey` | tiagemini.py:74-88 | at most one entry per line of the block, and each entry has the form `"<digits>. <A-D>"` |
| `AnswerKey.ParseAnswerKeyIsLatestQuestionKey` | tiagemini.py:74-88 | the key equals the reference definition: one entry per marked option line, in line order, numbered by the latest question line before it |
| `AnswerKey.ScanKeyConcat` | tiagemini.py:79-87 | reading the lines in two pieces gives the two keys one after the other; the second piece starts from the number the first left behind |
| `AnswerKey.NothingBeforeFirstQuestion` | tiagemini.py:76-85 | option lines before the first question line add nothing, because the current number starts unset |
| `AnswerKey.OneEntryPerMarkedOption` | tiagemini.py:82-87 | a question line followed by non-question lines gives one entry per marked option, all with the question's digits: none when no option is marked, and no de-duplication |
| `AnswerKey.WellFormedQuestionsGiveOneEntryEach` | tiagemini.py:74-88 | a block of N questions, each with exactly one marked option, gives exactly N entries, in question order |
| `AnswerKey.AnswerKeyFileLines` | tiagemini.py:367 | the answer-key file splits back at newlines into the banner, a blank line and the entries |
| `AnswerKey.EmptyAnswerKeyFileLines` | tiagemini.py:367 | an empty key still writes the banner and the blank line, and the file ends in one more empty line |
| `AnswerKey.AnswerKeyFileOfWellFormedBlock` | tiagemini.py:367 | for a block of N well-formed questions the file has N+2 lines, and line i+2 is question i's entry |
| `AnswerKey.SplitAnswerKeyHtml` | tiagemini.py:96 | a `<`-free prefix and the `<br>`-joined entries split at `<` into the prefix with the first entry, then `br>` before each further entry |
| `AnswerKey.AnswerKeyHtmlEntries` | tiagemini.py:96 | the report's key splits back at `<` into the entries, in order |
| `Markers.MarkerMatch` | tiagemini.py:362 | a match at the front of the text is a run of whitespace followed by `(correta)` |
| `Markers.MarkerMatchComplete` | tiagemini.py:362 | any run of whitespace followed by `(correta)` at the front is the match |
| `Markers.StripMarkers` | tiagemini.py:362 | the output is never longer than the input |
| `Markers.MarkerShortensOutput` | tiagemini.py:362 | a marker anywhere in the text shortens the output by at least the marker's length |
| `Markers.NoMarkerUnchanged` | tiagemini.py:362 | text without `(correta)` comes back unchanged |
| `Markers.StripMarkersUnchangedIff` | tiagemini.py:362 | the text comes back unchanged exactly when it holds no `(correta)` |
| `Markers.StripIdempotentWhenClean` | tiagemini.py:362 | stripping the output again changes nothing when the first pass left no marker |
| `Markers.PrefixWithoutParenKept` | tiagemini.py:362 | a stretch without `(` that does not end in whitespace is copied as it is, and the scan resumes after it |
| `Markers.StripsOptionMarker` | tiagemini.py:411 | `"a) x (correta)"` becomes `"a) x"` |
| `Markers.UpperCaseMarkerStays` | tiagemini.py:411 | matching is case-sensitive: `"a) x (CORRETA)"` is unchanged |
| `Markers.NestedMarkerStripsOnce` | tiagemini.py:362 | one pass over `((correta)correta)` removes only the inner marker and leaves the new `(correta)` that its removal forms |
| `Markers.StripIsNotIdempotent` | tiagemini.py:411 | `"((correta)correta)"` strips to `"(correta)"`, which strips to `""`: stripping is not idempotent |
| `Tables.SegmentAlignOfSeparator` | tiagemini.py:264-273 | `:---` reads as left, `:---:` as center and `---:` as right, whatever whitespace pads the segment |
| `Tables.SegmentWithoutColonIsLeft` | tiagemini.py:272-273 | a segment without colons is left-aligned |
| `Tables.AlignmentsOfSeparatorLine` | tiagemini.py:260-273 | the separator line written for a list of alignments reads back as that list, one alignment per segment |
| `Tables.ExampleAlignments` | tiagemini.py:260-273 | the separator line `:--`, `:--:`, `--:` (three segments) gives left, center, right |
| `Tables.KeptSpec` | tiagemini.py:294-297 | the cells come from exactly the non-empty columns, each once, in increasing order |
| `Tables.RowCellsFailure` | tiagemini.py:283-286 | a row fails exactly when some non-empty column has no alignment, and it reports the first such column |
| `Tables.RowCellsSuccess` | tiagemini.py:294-297 | a row that succeeds has one cell per non-empty column, in order, with that column's text and alignment; no padding |
| `Tables.BodyCellsSpec` | tiagemini.py:291-298 | the body fails exactly when one of its rows does; otherwise it holds each row's cells, in order |
| `Tables.BuildTableFailure` | tiagemini.py:259-298 | building fails exactly when there are fewer than two lines, or the header or a body row has a non-empty column past the separator's segments |
| `Tables.BuildTableOfSource` | tiagemini.py:259-298 | a table written as Markdown (header, separator line, rows) is read back as its cells with their alignments |
| `Tables.PipeRunSpec` | tiagemini.py:248 | the greedy run of newline-terminated lines holding a pipe character is a prefix of the text, and the line after it is not a pipe line |
| `Tables.PipeRunOfRunText` | tiagemini.py:248 | the run over given pipe lines, followed by text that does not start with a pipe line, is exactly those lines |
| `Tables.TableLinesOfMatch` | tiagemini.py:253-256 | the cleaned lines of a match are its rows, each stripped; the blank line in front and the final newline go |
| `Tables.TableHtmlOneLine` | tiagemini.py:279-302 | the HTML of a table is one line when its cell texts are |
| `Tables.ReplaceTableOneLine` | tiagemini.py:252-302 | the replacement of a match never holds a newline |
| `Tables.TableAtLineStart` | tiagemini.py:247-305 | at a line start, two or more pipe lines are replaced, final newline included, by the outcome of building a table from their stripped lines, and the scan continues on the rest at a line start |
| `Tables.TableAfterBlankLine` | tiagemini.py:248 | after a blank line, the `\n\n` alternative wins: both newlines go with the table |
| `Tables.ProcessTablesUnchangedIff` | tiagemini.py:245-305 | the text comes back unchanged exactly when no line start is followed by two newline-terminated lines holding a pipe character |
| `Tables.NewlinesIsMultisetCount` | tiagemini.py:305 | the newline count used for tables is the number of newline characters, the same count that bounds the answer-key lines |
| `Tables.SubNewlines` | tiagemini.py:305 | the scan never adds a newline |
| `Tables.TableDropsNewlines` | tiagemini.py:305 | a text with a table loses at least two newlines |
| `Tables.FewNewlinesNoTable` | tiagemini.py:248 | text with fewer than two newlines holds no table |
| `Tables.UnterminatedSeparatorUnchanged` | tiagemini.py:248 | a header line `A`, pipe, `B` with a newline, then a separator line `--`, pipe, `--` with no newline, comes back unchanged |
| `Tables.WholeTable` | tiagemini.py:245-305 | a text that is just a table's rows becomes exactly that table's HTML, with no newline after it |
| `Tables.AlignedTableExample` | tiagemini.py:245-305 | a three-line text (header `A B C`, separator `:--` `:--:` `--:`, row `1 2 3`, cells divided by pipes, each line newline-terminated) becomes one table whose header and body row are aligned left, center, right |
| `Presenter.ClassifyLine` | tiagemini.py:313-325 | a paragraph is the stripped line; an enunciation or option is a strictly shorter suffix of it |
| `Presenter.ClassifyQuestionLine` | tiagemini.py:315-320 | digits, a period, whitespace and a text give that text as the enunciation; the digits are dropped |
| `Presenter.ClassifyOptionLine` | tiagemini.py:321-323 | a letter a–d or A–D, `)`, optional whitespace and a text give that text as the option; a bare `a)` gives an empty option |
| `Presenter.ClassifyKinds` | tiagemini.py:315-325 | a line is an enunciation exactly when the question pattern matches its strip, an option exactly when only the option pattern does, and otherwise a paragraph holding the whole stripped line |
| `Presenter.ClassifyParagraph` | tiagemini.py:324-325 | a stripped line that matches neither `^\d+\.\s` nor `^[a-dA-D]\)`, the empty line included, becomes a paragraph of the whole line |
| `Presenter.ClassifyIgnoresPadding` | tiagemini.py:314 | whitespace around a line does not change how it is classified |
| `Presenter.BlockLines` | tiagemini.py:309 | the stripped block always has at least one line, and no line holds a newline |
| `Presenter.Scan` | tiagemini.py:313-328 | one question item is opened per question line, and there is one close per open, plus one for a question already open |
| `Presenter.ScanErases` | tiagemini.py:313-325 | dropping the numbers and closing tags gives back the lines, in order |
| `Presenter.ScanNumbers` | tiagemini.py:316-320 | the questions are numbered on from the counter, one more each time; the source digits are not used |
| `Presenter.ScanNested` | tiagemini.py:316-328 | each inner list is opened when no other is open and closed exactly once, only where the next question starts or at the end |
| `Presenter.ScanPlacesCloses` | tiagemini.py:316-328 | `</ul></li>` is written only right before the next question or as the last fragment, and the output ends with it whenever a question was open or opened, so a question's options sit inside its list |
| `Presenter.PresentSpec` | tiagemini.py:308-330 | one item per line of the stripped block, in order; the k-th question is numbered k; as many `</ul></li>` as question lines |
| `Presenter.FormatQuestions` | tiagemini.py:330 | the output starts with `<ol>\n` and ends with `</ol>` |
| `Presenter.EmptyBlock` | tiagemini.py:308-330 | empty input gives `"<ol>\n<p></p></ol>"` |
| `Presenter.OneQuestionExample` | tiagemini.py:308-330 | `"1. What is 2+2?\na) 3\nb) 4\nc) 5\nd) 6"` gives one question numbered 1 and the options 3, 4, 5, 6, in order, then one close |
| `Text.TrimLeftSpec` | tiagemini.py:80 | stripping the left drops exactly a run of whitespace and stops at a character that is not whitespace |
| `Text.TrimRightSpec` | tiagemini.py:80 | stripping the right drops exactly a run of whitespace and stops at a character that is not whitespace |
| `Text.StripSplits` | tiagemini.py:80 | a text is whitespace, its strip, and whitespace |
| `Text.StripIdempotent` | tiagemini.py:256 | stripping a stripped line changes nothing |
| `Text.SplitCount` | tiagemini.py:78 | splitting gives one more part than there are separators |
| `Text.JoinSplit` | tiagemini.py:78 | joining the parts of a split with the separator gives the text back |
| `Text.SplitJoin` | tiagemini.py:259 | splitting parts joined by a separator they do not hold gives the parts back |
| `Text.NatToStringRoundTrip` | tiagemini.py:320 | the decimal text written for the counter reads back as the counter |

## Left out

- The Gemini calls, PDF reading and rendering, `markdown2`, the HTML/CSS
  template of the report, the timestamped output folder, file writes and
  the command-line flow. These are network, foreign libraries, clock and
  I/O. Only the strings the model produces (the key, the marker-free
  questions, the table HTML, the question list) are covered.
- `\d` is taken as the ASCII digits `0`–`9`. Python also accepts other
  Unicode decimal digits. `\s` and `str.strip()` use Python's whitespace
  table (`IsSpace`).
- `re.IGNORECASE` is modelled as ASCII case folding. No non-ASCII
  character folds onto a letter of `correta` or of `[a-dA-D]`, so this is
  exact for these two patterns.
- An `IndexError` raised inside `substituir_tabela` is modelled as a
  `Failure` that ends the scan. In Python it propagates out of `re.sub`.
- The replacement and the joins at tiagemini.py:96 and tiagemini.py:367
  are modelled. The strings around them in the report and in the other
  output files are not.
- `Presenter.Scan`: the counts of opens and closes, the numbering and the
  nesting are stated on fragments, not on the rendered text. An option's
  text may itself contain `</ul>`, so counting substrings of the HTML
  would not match the loop.
- Behaviours of the code that are easy to miss, modelled as written:
  - Marker stripping is not idempotent (`StripIsNotIdempotent`).
  - `incorreta` marks an option (`IncorretaIsMarked`).
  - A blank line before a table is swallowed with it
    (`TableAfterBlankLine`).
  - The final newline of a table is consumed (`WholeTable`).
  - A cell beyond the separator's segments raises instead of falling back
    to left alignment (`RowCellsFailure`).

=== FILE: answer_key.dfy ===
/** The answer-key parser `processar_gabarito` and the two ways the key is
    flattened into text: joined with `<br>` for the report, and joined with
    newlines under a banner for the answer-key file.

    The parser reads the question block line by line, remembering the digits
    of the most recent question line (`1. ...`) and emitting `"<digits>. <L>"`
    for every option line (`a) ...`) whose text mentions `correta`. */
module AnswerKey {
  import opened Wrappers
  import opened Text

  // ---------------------------------------------------------------------
  // Line patterns

  /** Length of the run of decimal digits at the start of `s`. */
  function LeadingDigits(s: string): (n: nat)
    ensures n <= |s| && AllDigits(s[..n])
    ensures n == |s| || !IsDigit(s[n])
    decreases |s|
  {
    if |s| > 0 && IsDigit(s[0]) then
      var n := 1 + LeadingDigits(s[1..]);
      assert s[..n] == [s[0]] + s[1..][..n - 1];
      n
    else 0
  }

  /** A digit run that ends at a character that is not a digit is the
      leading digit run. */
  lemma LeadingDigitsUnique(s: string, k: nat)
    requires k < |s| && AllDigits(s[..k]) && !IsDigit(s[k])
    ensures LeadingDigits(s) == k
  {
  }

  /** `re.match(r'^(\d+)\.\s', line)`: the captured digits, when the line
      starts with digits, a period and a whitespace character. */
  function QuestionNumber(line: string): (r: Option<string>)
    ensures r.Some? ==>
      var k := |r.value|;
      0 < k < |line| - 1 && r.value == line[..k] && AllDigits(r.value)
      && line[k] == '.' && IsSpace(line[k + 1])
  {
    var n := LeadingDigits(line);
    if 0 < n < |line| - 1 && line[n] == '.' && IsSpace(line[n + 1]) then Some(line[..n]) else None
  }

  /** The regex matches exactly the lines that start with digits, a period
      and a whitespace character. */
  lemma QuestionNumberMatches(line: string)
    ensures QuestionNumber(line).Some? <==>
      exists k :: 0 < k < |line| - 1 && AllDigits(line[..k]) && line[k] == '.' && IsSpace(line[k + 1])
  {
    var n := LeadingDigits(line);
    forall k | 0 < k < |line| - 1 && AllDigits(line[..k]) && line[k] == '.'
      ensures k == n
    {
      LeadingDigitsUnique(line, k);
    }
  }

  predicate IsOptionLetter(c: char)
  {
    'a' <= c <= 'd' || 'A' <= c <= 'D'
  }

  /** ASCII lower-casing, which is all `re.IGNORECASE` does to the letters
      of `correta` and `[a-dA-D]`. */
  function ToLower(c: char): (r: char)
    ensures 'A' <= c <= 'Z' ==> r as int == c as int + 32
    ensures !('A' <= c <= 'Z') ==> r == c
  {
    if 'A' <= c <= 'Z' then (c as int + 32) as char else c
  }

  function ToUpper(c: char): (r: char)
    ensures 'a' <= c <= 'z' ==> r as int == c as int - 32
    ensures !('a' <= c <= 'z') ==> r == c
  {
    if 'a' <= c <= 'z' then (c as int - 32) as char else c
  }

  /** `s` starts with the lower-case word `pat`, ignoring case. */
  predicate StartsWithIgnoringCase(s: string, pat: string)
  {
    |pat| <= |s| && forall j :: 0 <= j < |pat| ==> ToLower(s[j]) == pat[j]
  }

  /** `pat` occurs somewhere in `s`, ignoring case. */
  function OccursIgnoringCase(s: string, pat: string): (b: bool)
    ensures b <==> exists i :: 0 <= i <= |s| && StartsWithIgnoringCase(s[i..], pat)
    decreases |s|
  {
    if StartsWithIgnoringCase(s, pat) then
      assert s[0..] == s;
      true
    else if |s| == 0 then false
    else
      var b := OccursIgnoringCase(s[1..], pat);
      assert forall i :: 1 <= i <= |s| ==> s[i..] == s[1..][i - 1..];
      assert b ==> exists i :: 0 <= i <= |s| && StartsWithIgnoringCase(s[i..], pat) by {
        if b {
          var i :| 0 <= i <= |s| - 1 && StartsWithIgnoringCase(s[1..][i..], pat);
          assert s[1..][i..] == s[i + 1..];
        }
      }
      b
  }

  /** `re.match(r'^([a-dA-D])\)\s.*\(?correta\)?', line, re.IGNORECASE)`:
      the option letter, upper-cased. Both parentheses around `correta` are
      optional, so any occurrence of `correta` from index 3 on will do. */
  function MarkedLetter(line: string): (r: Option<char>)
    ensures r.Some? ==> |line| > 0 && 'A' <= r.value <= 'D' && ToLower(r.value) == ToLower(line[0])
  {
    if |line| >= 3 && IsOptionLetter(line[0]) && line[1] == ')' && IsSpace(line[2])
       && OccursIgnoringCase(line[3..], "correta")
    then Some(ToUpper(line[0]))
    else None
  }

  /** The regex matches exactly the option lines (a letter a-d in either
      case, `)`, whitespace) with `correta`, in any case, somewhere after. */
  lemma MarkedLetterMatches(line: string)
    ensures MarkedLetter(line).Some? <==>
      |line| >= 3 && IsOptionLetter(line[0]) && line[1] == ')' && IsSpace(line[2])
      && exists i :: 3 <= i <= |line| && StartsWithIgnoringCase(line[i..], "correta")
  {
    if |line| >= 3 {
      assert forall i :: 3 <= i <= |line| ==> line[i..] == line[3..][i - 3..];
    }
  }

  /** The parentheses are optional and `correta` may sit inside a word:
      an option marked `incorreta` counts as the answer. */
  lemma IncorretaIsMarked()
    ensures MarkedLetter("a) incorreta") == Some('A')
  {
    var line := "a) incorreta";
    var rest := line[3..];
    assert rest[2..] == "correta";
    assert StartsWithIgnoringCase(rest[2..], "correta");
  }

  /** A line cannot be both a question line and an option line. */
  lemma QuestionLineIsNoOption(line: string)
    requires QuestionNumber(line).Some?
    ensures MarkedLetter(line).None?
  {
    var d := QuestionNumber(line).value;
    assert line[..|d|][0] == line[0];
  }

  // ---------------------------------------------------------------------
  // Entries

  /** `f"{numero_questao}. {letra}"` */
  function Entry(number: string, letter: char): string
  {
    number + ". " + [letter]
  }

  /** The shape every answer-key entry has: digits, `". "`, a letter A-D. */
  predicate WellFormedEntry(e: string)
  {
    |e| >= 4 && AllDigits(e[..|e| - 3]) && e[|e| - 3] == '.' && e[|e| - 2] == ' '
    && 'A' <= e[|e| - 1] <= 'D'
  }

  predicate ValidNumber(current: Option<string>)
  {
    current.Some? ==> |current.value| > 0 && AllDigits(current.value)
  }

  lemma EntryWellFormed(number: string, letter: char)
    requires |number| > 0 && AllDigits(number) && 'A' <= letter <= 'D'
    ensures WellFormedEntry(Entry(number, letter))
  {
    assert Entry(number, letter)[..|number|] == number;
  }

  // ---------------------------------------------------------------------
  // Line classification

  /** What one line of the block is to the parser, once stripped. */
  datatype LineKind = QuestionLine(number: string) | MarkedOptionLine(letter: char) | OtherLine

  predicate ValidKind(kind: LineKind)
  {
    && (kind.QuestionLine? ==> |kind.number| > 0 && AllDigits(kind.number))
    && (kind.MarkedOptionLine? ==> 'A' <= kind.letter <= 'D')
  }

  /** The two patterns of the loop body applied to the stripped line. */
  function Classify(line: string): (kind: LineKind)
    ensures ValidKind(kind)
  {
    var stripped := Strip(line);
    match QuestionNumber(stripped)
    case Some(d) =>
      assert stripped[..|d|] == d;
      QuestionLine(d)
    case None =>
      match MarkedLetter(stripped)
      case Some(letter) => MarkedOptionLine(letter)
      case None => OtherLine
  }

  /** The source tests both patterns on every line; since no line matches
      both, the kind records each test's outcome. */
  lemma ClassifyRecordsBothMatches(line: string)
    ensures Classify(line).QuestionLine? <==> QuestionNumber(Strip(line)).Some?
    ensures Classify(line).QuestionLine? ==> Classify(line).number == QuestionNumber(Strip(line)).value
    ensures Classify(line).MarkedOptionLine? <==> MarkedLetter(Strip(line)).Some?
    ensures Classify(line).MarkedOptionLine? ==> Classify(line).letter == MarkedLetter(Strip(line)).value
  {
    if QuestionNumber(Strip(line)).Some? {
      QuestionLineIsNoOption(Strip(line));
    }
  }

  function Kinds(lines: seq<string>): (kinds: seq<LineKind>)
    ensures |kinds| == |lines|
    ensures forall i :: 0 <= i < |lines| ==> kinds[i] == Classify(lines[i])
  {
    seq(|lines|, i requires 0 <= i < |lines| => Classify(lines[i]))
  }

  lemma KindsConcat(a: seq<string>, b: seq<string>)
    ensures Kinds(a + b) == Kinds(a) + Kinds(b)
  {
  }

  // ---------------------------------------------------------------------
  // The scan

  /** The current question number after a line. */
  function Step(current: Option<string>, kind: LineKind): Option<string>
  {
    if kind.QuestionLine? then Some(kind.number) else current
  }

  /** The entry a line appends, given the current question number. */
  function Emit(current: Option<string>, kind: LineKind): seq<string>
  {
    if kind.MarkedOptionLine? && current.Some? then [Entry(current.value, kind.letter)] else []
  }

  /** The loop of `processar_gabarito` from a given current question number:
      at most one entry per line. */
  function ScanKey(kinds: seq<LineKind>, current: Option<string>): (key: seq<string>)
    ensures |key| <= |kinds|
  {
    if |kinds| == 0 then []
    else
      var next := Step(current, kinds[0]);
      Emit(next, kinds[0]) + ScanKey(kinds[1..], next)
  }

  lemma {:induction false} ScanKeyWellFormed(kinds: seq<LineKind>, current: Option<string>)
    requires ValidNumber(current)
    requires forall i :: 0 <= i < |kinds| ==> ValidKind(kinds[i])
    ensures forall i :: 0 <= i < |ScanKey(kinds, current)| ==> WellFormedEntry(ScanKey(kinds, current)[i])
  {
    if |kinds| > 0 {
      var next := Step(current, kinds[0]);
      if kinds[0].MarkedOptionLine? && next.Some? {
        EntryWellFormed(next.value, kinds[0].letter);
      }
      ScanKeyWellFormed(kinds[1..], next);
    }
  }

  /** `processar_gabarito(questoes)`: at most one entry per line, each of the
      form `"<digits>. <A-D>"`. */
  function ParseAnswerKey(text: string): (key: seq<string>)
    ensures |key| <= multiset(text)['\n'] + 1
    ensures forall i :: 0 <= i < |key| ==> WellFormedEntry(key[i])
  {
    SplitCount(text, '\n');
    ScanKeyWellFormed(Kinds(Split(text, '\n')), None);
    ScanKey(Kinds(Split(text, '\n')), None)
  }

  // ---------------------------------------------------------------------
  // Reference definition: each marked option line is answered with the
  // number of the most recent question line before it.

  /** Digits of the last question line, or `current` if there is none. */
  function LatestQuestion(current: Option<string>, kinds: seq<LineKind>): Option<string>
  {
    if |kinds| == 0 then current
    else if kinds[|kinds| - 1].QuestionLine? then Some(kinds[|kinds| - 1].number)
    else LatestQuestion(current, kinds[..|kinds| - 1])
  }

  /** The key, line by line from the end: a marked option line contributes
      an entry numbered by the latest question line up to it. */
  function KeySpec(current: Option<string>, kinds: seq<LineKind>): seq<string>
  {
    if |kinds| == 0 then []
    else
      var n := |kinds| - 1;
      KeySpec(current, kinds[..n]) + Emit(LatestQuestion(current, kinds), kinds[n])
  }

  lemma {:induction false} LatestQuestionFront(current: Option<string>, kinds: seq<LineKind>)
    requires |kinds| >= 1
    ensures LatestQuestion(current, kinds) == LatestQuestion(Step(current, kinds[0]), kinds[1..])
  {
    var n := |kinds| - 1;
    if n > 0 {
      assert kinds[1..][n - 1] == kinds[n];
      assert kinds[1..][..n - 1] == kinds[..n][1..];
      if !kinds[n].QuestionLine? {
        LatestQuestionFront(current, kinds[..n]);
      }
    }
  }

  lemma {:induction false} KeySpecFront(current: Option<string>, kinds: seq<LineKind>)
    requires |kinds| >= 1
    ensures KeySpec(current, kinds)
         == Emit(Step(current, kinds[0]), kinds[0]) + KeySpec(Step(current, kinds[0]), kinds[1..])
  {
    var n := |kinds| - 1;
    var next := Step(current, kinds[0]);
    var tail := kinds[1..];
    LatestQuestionFront(current, kinds);
    if n > 0 {
      assert tail[n - 1] == kinds[n];
      assert kinds[..n][0] == kinds[0];
      assert kinds[..n][1..] == tail[..n - 1];
      KeySpecFront(current, kinds[..n]);
      ConcatAssoc(Emit(next, kinds[0]), KeySpec(next, tail[..n - 1]), Emit(LatestQuestion(current, kinds), kinds[n]));
    }
  }

  /** The scan computes the reference key. */
  lemma {:induction false} ScanKeyMatchesLatestQuestion(kinds: seq<LineKind>, current: Option<string>)
    ensures ScanKey(kinds, current) == KeySpec(current, kinds)
  {
    if |kinds| > 0 {
      ScanKeyMatchesLatestQuestion(kinds[1..], Step(current, kinds[0]));
      KeySpecFront(current, kinds);
    }
  }

  /** Every entry of the parsed key comes, in line order, from a marked
      option line and carries the digits of the latest question line. */
  lemma ParseAnswerKeyIsLatestQuestionKey(text: string)
    ensures ParseAnswerKey(text) == KeySpec(None, Kinds(Split(text, '\n')))
  {
    ScanKeyMatchesLatestQuestion(Kinds(Split(text, '\n')), None);
  }

  // ---------------------------------------------------------------------
  // Consequences

  /** Reading a block in two pieces: the second starts with the question
      number the first one left behind. */
  lemma {:induction false} ScanKeyConcat(a: seq<LineKind>, b: seq<LineKind>, current: Option<string>)
    ensures ScanKey(a + b, current) == ScanKey(a, current) + ScanKey(b, LatestQuestion(current, a))
  {
    if |a| == 0 {
      assert a + b == b;
    } else {
      var next := Step(current, a[0]);
      assert (a + b)[0] == a[0];
      assert (a + b)[1..] == a[1..] + b;
      LatestQuestionFront(current, a);
      ScanKeyConcat(a[1..], b, next);
      ConcatAssoc(Emit(next, a[0]), ScanKey(a[1..], next), ScanKey(b, LatestQuestion(current, a)));
    }
  }

  predicate NoQuestionLine(kinds: seq<LineKind>)
  {
    forall i :: 0 <= i < |kinds| ==> !kinds[i].QuestionLine?
  }

  lemma {:induction false} NoQuestionKeepsNumber(current: Option<string>, kinds: seq<LineKind>)
    requires NoQuestionLine(kinds)
    ensures LatestQuestion(current, kinds) == current
  {
    if |kinds| > 0 {
      NoQuestionKeepsNumber(current, kinds[..|kinds| - 1]);
    }
  }

  lemma {:induction false} NoQuestionNoEntries(kinds: seq<LineKind>)
    requires NoQuestionLine(kinds)
    ensures ScanKey(kinds, None) == []
  {
    if |kinds| > 0 {
      NoQuestionNoEntries(kinds[1..]);
    }
  }

  /** Option lines before the first question line contribute nothing:
      the current number starts out unset. */
  lemma NothingBeforeFirstQuestion(before: seq<string>, after: seq<string>)
    requires NoQuestionLine(Kinds(before))
    ensures ScanKey(Kinds(before + after), None) == ScanKey(Kinds(after), None)
  {
    KindsConcat(before, after);
    ScanKeyConcat(Kinds(before), Kinds(after), None);
    NoQuestionNoEntries(Kinds(before));
    NoQuestionKeepsNumber(None, Kinds(before));
  }

  /** Letters of the marked option lines, in order. */
  function MarkedLetters(kinds: seq<LineKind>): (letters: seq<char>)
    ensures |letters| <= |kinds|
  {
    if |kinds| == 0 then []
    else if kinds[0].MarkedOptionLine? then [kinds[0].letter] + MarkedLetters(kinds[1..])
    else MarkedLetters(kinds[1..])
  }

  lemma {:induction false} MarkedLettersValid(kinds: seq<LineKind>)
    requires forall i :: 0 <= i < |kinds| ==> ValidKind(kinds[i])
    ensures forall i :: 0 <= i < |MarkedLetters(kinds)| ==> 'A' <= MarkedLetters(kinds)[i] <= 'D'
  {
    if |kinds| > 0 {
      MarkedLettersValid(kinds[1..]);
    }
  }

  /** One entry per letter, all with the same question number. */
  function Entries(number: string, letters: seq<char>): (key: seq<string>)
    ensures |key| == |letters|
    ensures forall i :: 0 <= i < |key| ==> key[i] == Entry(number, letters[i])
  {
    seq(|letters|, i requires 0 <= i < |letters| => Entry(number, letters[i]))
  }

  lemma {:induction false} OptionsUnderQuestion(kinds: seq<LineKind>, number: string)
    requires NoQuestionLine(kinds)
    ensures ScanKey(kinds, Some(number)) == Entries(number, MarkedLetters(kinds))
  {
    if |kinds| > 0 {
      OptionsUnderQuestion(kinds[1..], number);
    }
  }

  /** A question line followed by lines that are not question lines yields
      one entry per marked option, with the question's digits: none when no
      option is marked, several (no de-duplication) when several are. */
  lemma OneEntryPerMarkedOption(question: string, options: seq<string>, current: Option<string>)
    requires Classify(question).QuestionLine?
    requires NoQuestionLine(Kinds(options))
    ensures ScanKey(Kinds([question] + options), current)
         == Entries(Classify(question).number, MarkedLetters(Kinds(options)))
  {
    KindsConcat([question], options);
    var kinds := Kinds([question]) + Kinds(options);
    assert kinds[0] == Classify(question) && kinds[1..] == Kinds(options);
    OptionsUnderQuestion(Kinds(options), Classify(question).number);
  }

  /** A question line, then its options, exactly one of them marked. */
  predicate WellFormedQuestion(kinds: seq<LineKind>)
  {
    && |kinds| >= 1 && kinds[0].QuestionLine?
    && NoQuestionLine(kinds[1..]) && |MarkedLetters(kinds[1..])| == 1
    && forall i :: 0 <= i < |kinds| ==> ValidKind(kinds[i])
  }

  /** The entry a well-formed question is expected to produce. */
  function ExpectedEntry(kinds: seq<LineKind>): string
    requires WellFormedQuestion(kinds)
  {
    Entry(kinds[0].number, MarkedLetters(kinds[1..])[0])
  }

  function Concat<T>(blocks: seq<seq<T>>): seq<T>
  {
    if |blocks| == 0 then [] else blocks[0] + Concat(blocks[1..])
  }

  lemma WellFormedQuestionGivesItsEntry(kinds: seq<LineKind>, current: Option<string>)
    requires WellFormedQuestion(kinds)
    ensures ScanKey(kinds, current) == [ExpectedEntry(kinds)]
  {
    OptionsUnderQuestion(kinds[1..], kinds[0].number);
  }

  /** A block of N well-formed questions gives exactly N entries, in
      question order, each pairing the question's digits with the letter of
      its marked option. */
  lemma {:induction false} WellFormedQuestionsGiveOneEntryEach(blocks: seq<seq<LineKind>>, current: Option<string>)
    requires forall i :: 0 <= i < |blocks| ==> WellFormedQuestion(blocks[i])
    ensures |ScanKey(Concat(blocks), current)| == |blocks|
    ensures forall i :: 0 <= i < |blocks| ==> ScanKey(Concat(blocks), current)[i] == ExpectedEntry(blocks[i])
  {
    if |blocks| > 0 {
      var b, rest := blocks[0], blocks[1..];
      var next := LatestQuestion(current, b);
      assert Concat(blocks) == b + Concat(rest);
      ScanKeyConcat(b, Concat(rest), current);
      WellFormedQuestionGivesItsEntry(b, current);
      WellFormedQuestionsGiveOneEntryEach(rest, next);
      var head, tail := ScanKey(b, current), ScanKey(Concat(rest), next);
      assert ScanKey(Concat(blocks), current) == head + tail;
      forall i | 1 <= i < |blocks|
        ensures (head + tail)[i] == ExpectedEntry(blocks[i])
      {
        assert blocks[i] == rest[i - 1];
        assert (head + tail)[i] == tail[i - 1];
      }
    }
  }

  // ---------------------------------------------------------------------
  // Flattening the key

  /** The first line of the answer-key file. */
  const Banner: string := "=== GABARITO ==="

  /** `"=== GABARITO ===\n\n" + "\n".join(gabarito)`, the answer-key file. */
  function AnswerKeyFile(key: seq<string>): string
  {
    Banner + "\n\n" + Join(key, "\n")
  }

  /** `"<br>".join(gabarito)`, the key as it appears in the report. */
  function AnswerKeyHtml(key: seq<string>): string
  {
    Join(key, "<br>")
  }

  lemma EntryHasNoMarkup(e: string)
    requires WellFormedEntry(e)
    ensures '\n' !in e && '<' !in e
  {
    assert e == e[..|e| - 3] + e[|e| - 3..];
  }

  /** The answer-key file is the banner, a blank line, then one line per
      entry of the key. */
  lemma AnswerKeyFileLines(key: seq<string>)
    requires |key| >= 1
    requires forall i :: 0 <= i < |key| ==> WellFormedEntry(key[i])
    ensures Split(AnswerKeyFile(key), '\n') == [Banner, ""] + key
  {
    forall i | 0 <= i < |key| {
      EntryHasNoMarkup(key[i]);
    }
    SplitJoin(key, '\n');
    BannerLines(Banner, Join(key, "\n"));
  }

  /** An empty key (no question line, or no marked option) still writes the
      banner and the blank line, followed by one more empty line. */
  lemma EmptyAnswerKeyFileLines()
    ensures Split(AnswerKeyFile([]), '\n') == [Banner, "", ""]
  {
    BannerLines(Banner, Join([], "\n"));
  }

  /** A line, a blank line, and a body: the body's lines come third. */
  lemma BannerLines(banner: string, body: string)
    requires '\n' !in banner
    ensures Split(banner + "\n\n" + body, '\n') == [banner, ""] + Split(body, '\n')
  {
    assert banner + "\n\n" + body == banner + ['\n'] + ([] + ['\n'] + body);
    SplitAtFirst(banner, '\n', [] + ['\n'] + body);
    SplitAtFirst([], '\n', body);
  }

  /** The answer key a block parses to, written to the file: a block of N
      well-formed questions gives a file of exactly N entry lines. */
  lemma AnswerKeyFileOfWellFormedBlock(blocks: seq<seq<LineKind>>)
    requires |blocks| >= 1
    requires forall i :: 0 <= i < |blocks| ==> WellFormedQuestion(blocks[i])
    ensures var lines := Split(AnswerKeyFile(ScanKey(Concat(blocks), None)), '\n');
      |lines| == |blocks| + 2
      && forall i :: 2 <= i < |lines| ==> lines[i] == ExpectedEntry(blocks[i - 2])
  {
    var key := ScanKey(Concat(blocks), None);
    WellFormedQuestionsGiveOneEntryEach(blocks, None);
    forall i | 0 <= i < |key|
      ensures WellFormedEntry(key[i])
    {
      var b := blocks[i];
      MarkedLettersValid(b[1..]);
      EntryWellFormed(b[0].number, MarkedLetters(b[1..])[0]);
    }
    AnswerKeyFileLines(key);
  }

  /** The entries after the first, each behind the `br>` left of its
      `<br>` once the text is broken at `<`. */
  function BrEntries(key: seq<string>): (parts: seq<string>)
    requires |key| >= 1
    ensures |parts| == |key| - 1
    ensures forall i :: 0 <= i < |parts| ==> parts[i] == "br>" + key[i + 1]
  {
    seq(|key| - 1, i requires 0 <= i < |key| - 1 => "br>" + key[i + 1])
  }

  lemma BrEntriesCons(key: seq<string>)
    requires |key| >= 2
    ensures BrEntries(key) == ["br>" + key[1]] + BrEntries(key[1..])
  {
    var r := ["br>" + key[1]] + BrEntries(key[1..]);
    forall i | 0 <= i < |key| - 1
      ensures BrEntries(key)[i] == r[i]
    {
      if i > 0 {
        assert r[i] == BrEntries(key[1..])[i - 1];
      }
    }
  }

  /** The entries joined by `<br>` behind a prefix, the first `<` found. */
  lemma HtmlStep(prefix: string, first: string, rest: string)
    ensures prefix + (first + "<br>" + rest) == (prefix + first) + ['<'] + ("br>" + rest)
  {
  }

  /** Breaking `prefix + AnswerKeyHtml(key)` at each `<`: the first entry
      (after the prefix), then `br>` before each further entry. */
  lemma {:induction false} SplitAnswerKeyHtml(prefix: string, key: seq<string>)
    requires |key| >= 1 && '<' !in prefix
    requires forall i :: 0 <= i < |key| ==> '<' !in key[i]
    ensures Split(prefix + AnswerKeyHtml(key), '<') == [prefix + key[0]] + BrEntries(key)
    decreases |key|
  {
    if |key| == 1 {
      assert '<' !in prefix + key[0];
    } else {
      var rest := AnswerKeyHtml(key[1..]);
      assert AnswerKeyHtml(key) == key[0] + "<br>" + rest;
      HtmlStep(prefix, key[0], rest);
      assert '<' !in prefix + key[0];
      SplitAtFirst(prefix + key[0], '<', "br>" + rest);
      SplitAnswerKeyHtml("br>", key[1..]);
      BrEntriesCons(key);
    }
  }

  /** The report's answer key lists the entries in order, one per `<br>`. */
  lemma AnswerKeyHtmlEntries(key: seq<string>)
    requires |key| >= 1
    requires forall i :: 0 <= i < |key| ==> WellFormedEntry(key[i])
    ensures Split(AnswerKeyHtml(key), '<') == [key[0]] + BrEntries(key)
  {
    forall i | 0 <= i < |key| {
      EntryHasNoMarkup(key[i]);
    }
    SplitAnswerKeyHtml([], key);
    assert [] + AnswerKeyHtml(key) == AnswerKeyHtml(key);
    assert [] + key[0] == key[0];
  }
}

=== FILE: markers.dfy ===
/** Removal of the correctness marker, `re.sub(r'\s*\(correta\)', '', text)`:
    scanning left to right, every `(correta)` (lower case only) is deleted
    together with the run of whitespace just before it.

    Some example lemmas take their literal as a parameter fixed by a
    `requires x == "..."` clause: stated inline, the literal made those
    proofs too costly for the solver. */
module Markers {
  import opened Wrappers
  import opened Text

  const Marker: string := "(correta)"

  /** Length of the match of `\s*\(correta\)` at the start of `s`, if any.
      Backing off the greedy `\s*` cannot help, since the character after a
      shorter run is whitespace and not `(`. */
  function MarkerMatch(s: string): (r: Option<nat>)
    ensures r.Some? ==>
      var k := r.value - |Marker|;
      0 <= k && r.value <= |s| && AllSpaces(s[..k]) && s[k..r.value] == Marker
  {
    var rest := TrimLeft(s);
    TrimLeftSpec(s);
    if StartsWith(rest, Marker) then Some(|s| - |rest| + |Marker|) else None
  }

  /** Any whitespace run followed by the marker is the match. */
  lemma MarkerMatchComplete(s: string, k: nat)
    requires k <= |s| && AllSpaces(s[..k]) && StartsWith(s[k..], Marker)
    ensures MarkerMatch(s) == Some(k + |Marker|)
  {
    var w := |s| - |TrimLeft(s)|;
    TrimLeftSpec(s);
    assert s[k] == '(';
    if k < w {
      assert false;
    } else if w < k {
      assert false;
    }
  }

  /** `re.sub(r'\s*\(correta\)', '', s)` */
  function StripMarkers(s: string): (r: string)
    ensures |r| <= |s|
    decreases |s|
  {
    if |s| == 0 then []
    else
      match MarkerMatch(s)
      case Some(n) => StripMarkers(s[n..])
      case None => [s[0]] + StripMarkers(s[1..])
  }

  /** A marker somewhere in the text costs the output at least its length. */
  lemma {:induction false} MarkerShortensOutput(s: string)
    requires Occurs(s, Marker)
    ensures |StripMarkers(s)| + |Marker| <= |s|
    decreases |s|
  {
    var i :| 0 <= i <= |s| && StartsWith(s[i..], Marker);
    if MarkerMatch(s).None? {
      if i == 0 {
        assert s[..0] == [];
        MarkerMatchComplete(s, 0);
      }
      assert s[1..][i - 1..] == s[i..];
      MarkerShortensOutput(s[1..]);
    }
  }

  /** Text without a marker is left alone. */
  lemma {:induction false} NoMarkerUnchanged(s: string)
    requires !Occurs(s, Marker)
    ensures StripMarkers(s) == s
    decreases |s|
  {
    if |s| > 0 {
      assert !Occurs(s[1..], Marker) by {
        forall i | 0 <= i <= |s| - 1
          ensures !StartsWith(s[1..][i..], Marker)
        {
          assert s[1..][i..] == s[i + 1..];
        }
      }
      MatchIsOccurrence(s);
      NoMarkerUnchanged(s[1..]);
      SplitAt(s, 1);
      assert s[..1] == [s[0]];
    }
  }

  /** A match at the front is an occurrence of the marker. */
  lemma MatchIsOccurrence(s: string)
    ensures MarkerMatch(s).Some? ==> Occurs(s, Marker)
  {
    if MarkerMatch(s).Some? {
      var n := MarkerMatch(s).value;
      var k := n - |Marker|;
      assert s[k..][..|Marker|] == s[k..n];
      assert StartsWith(s[k..], Marker);
    }
  }

  /** The text comes back unchanged exactly when it holds no marker. */
  lemma StripMarkersUnchangedIff(s: string)
    ensures StripMarkers(s) == s <==> !Occurs(s, Marker)
  {
    if Occurs(s, Marker) {
      MarkerShortensOutput(s);
    } else {
      NoMarkerUnchanged(s);
    }
  }

  /** Stripping twice is stripping once whenever the first pass left no
      marker behind (it may leave one: see `StripIsNotIdempotent`). */
  lemma StripIdempotentWhenClean(s: string)
    requires !Occurs(StripMarkers(s), Marker)
    ensures StripMarkers(StripMarkers(s)) == StripMarkers(s)
  {
    StripMarkersUnchangedIff(StripMarkers(s));
  }

  /** A stretch with no `(` that ends in a character other than whitespace
      cannot start a match. */
  lemma NoMatchBeforeParenFreeStretch(a: string, b: string)
    requires |a| > 0 && '(' !in a && !IsSpace(a[|a| - 1])
    ensures MarkerMatch(a + b).None?
  {
    var last := |a| - 1;
    assert !AllSpaces(a);
    TrimLeftConcat(a, b);
    TrimLeftSpec(a);
    var w := |a| - |TrimLeft(a)|;
    assert w <= last;
    assert TrimLeft(a + b)[0] == a[w] != '(';
  }

  /** Where no match starts, the first character is copied and the scan
      moves on by one. */
  lemma NoMatchKeepsFirst(s: string)
    requires |s| > 0 && MarkerMatch(s).None?
    ensures StripMarkers(s) == [s[0]] + StripMarkers(s[1..])
  {
  }

  /** So the first character of such a stretch is kept. */
  lemma FirstCharKept(a: string, b: string)
    requires |a| > 0 && '(' !in a && !IsSpace(a[|a| - 1])
    ensures StripMarkers(a + b) == [a[0]] + StripMarkers(a[1..] + b)
  {
    NoMatchBeforeParenFreeStretch(a, b);
    NoMatchKeepsFirst(a + b);
    assert (a + b)[1..] == a[1..] + b;
  }

  lemma TailKeepsOut(a: string, c: char)
    requires |a| > 0 && c !in a
    ensures c !in a[1..]
  {
  }

  /** A stretch with no `(` that ends in a character other than whitespace
      is copied as it is; the scan resumes right after it. */
  lemma {:induction false} PrefixWithoutParenKept(a: string, b: string)
    requires '(' !in a
    requires a == [] || !IsSpace(a[|a| - 1])
    ensures StripMarkers(a + b) == a + StripMarkers(b)
    decreases |a|
  {
    if |a| == 0 {
      assert a + b == b;
    } else {
      FirstCharKept(a, b);
      TailKeepsOut(a, '(');
      assert |a| == 1 || a[1..][|a| - 2] == a[|a| - 1];
      PrefixWithoutParenKept(a[1..], b);
      ConcatAssoc([a[0]], a[1..], StripMarkers(b));
      SplitAt(a, 1);
      assert a[..1] == [a[0]];
    }
  }

  /** The marker of an option line goes, with the space before it. */
  lemma StripsOptionMarker()
    ensures StripMarkers("a) x (correta)") == "a) x"
  {
    var b := " (correta)";
    assert b[..1] == " " && b[1..] == Marker;
    MarkerMatchComplete(b, 1);
    assert StripMarkers(b) == StripMarkers(b[10..]);
    assert "a) x (correta)" == "a) x" + b;
    PrefixWithoutParenKept("a) x", b);
  }

  /** Matching is case-sensitive: an upper-case marker stays. */
  lemma UpperCaseMarkerStays()
    ensures StripMarkers("a) x (CORRETA)") == "a) x (CORRETA)"
  {
    UpperCaseIsNoMarker("a) x (CORRETA)");
    NoMarkerUnchanged("a) x (CORRETA)");
  }

  lemma UpperCaseIsNoMarker(s: string)
    requires s == "a) x (CORRETA)"
    ensures !Occurs(s, Marker)
  {
    forall i | 0 <= i <= |s|
      ensures !StartsWith(s[i..], Marker)
    {
      if i <= |s| - |Marker| {
        if i != 5 {
          assert s[i..][0] == s[i] != '(';
        } else {
          assert s[i..][1] == 'C';
        }
      }
    }
  }

  /** The marker alone strips to nothing. */
  lemma MarkerAloneGoes()
    ensures StripMarkers(Marker) == []
  {
    LeadingMarkerGoes([]);
    assert Marker + [] == Marker;
  }

  /** A marker at the very start goes, and the scan resumes after it. */
  lemma LeadingMarkerGoes(t: string)
    ensures StripMarkers(Marker + t) == StripMarkers(t)
  {
    var s := Marker + t;
    assert s[..0] == [] && s[0..] == s;
    MarkerMatchComplete(s, 0);
    assert s[|Marker|..] == t;
  }

  /** A `(` that does not start a marker is kept. */
  lemma ParenBeforeMarkerKept(t: string)
    ensures StripMarkers("(" + Marker + t) == "(" + StripMarkers(Marker + t)
  {
    var s := "(" + Marker + t;
    TrimLeftOfNonSpaceStart(s);
    assert s[1] == '(';
    assert !StartsWith(s, Marker);
    assert s[1..] == Marker + t;
  }

  /** The marker's tail after its `(`. */
  lemma MarkerTail(t: string)
    requires t == "correta)"
    ensures '(' !in t && !IsSpace(t[|t| - 1]) && "(" + t == Marker
  {
    assert t[7] == ')';
  }

  /** A `(` in front of a marker followed by the marker's own tail: the
      inner marker goes, and what is left is a marker again. */
  lemma NestedMarkerStripsOnce(t: string)
    requires t == "correta)"
    ensures StripMarkers("(" + Marker + t) == Marker
  {
    MarkerTail(t);
    ParenBeforeMarkerKept(t);
    LeadingMarkerGoes(t);
    PrefixWithoutParenKept(t, []);
    assert t + [] == t;
  }

  /** Removing one marker can bring another one together: the operation is
      not idempotent. */
  lemma StripIsNotIdempotent()
    ensures var s := "((correta)correta)";
      StripMarkers(s) == Marker && StripMarkers(StripMarkers(s)) != StripMarkers(s)
  {
    var t := "correta)";
    assert "((correta)correta)" == "(" + Marker + t;
    NestedMarkerStripsOnce(t);
    MarkerAloneGoes();
  }
}

=== FILE: presenter.dfy ===
/** The question presenter `formatar_questoes_para_html`: the question block
    is re-flowed into a nested HTML list. Each question line (`1. ...`)
    opens an item of the outer `<ol>` holding its enunciation and an inner
    `<ul>`; each option line (`a) ...`) becomes an item of that inner list;
    every other line becomes a paragraph. Questions are renumbered 1, 2, ...
    by a counter, and the inner list of a question is closed when the next
    question starts or the block ends.

    The output is modelled as a sequence of fragments, each rendered to a
    fixed piece of HTML; the counting and nesting facts are stated on the
    fragments, because the text of an option may itself contain `</ul>`.

    Some example lemmas take their literal as a parameter fixed by a
    `requires x == "..."` clause: stated inline, the literal made those
    proofs too costly for the solver. */
module Presenter {
  import opened Text
  import AnswerKey
  import Wrappers

  // ---------------------------------------------------------------------
  // Lines

  /** What a line of the block says, its prefix removed. */
  datatype Item =
    | Enunciation(text: string)
    | Alternative(text: string)
    | Paragraph(text: string)

  /** `re.match(r'^[a-dA-D]\)', line)` on a stripped line. */
  predicate IsOptionLine(line: string)
  {
    |line| >= 2 && AnswerKey.IsOptionLetter(line[0]) && line[1] == ')'
  }

  /** The loop body's classification of one line, after `linha.strip()`:
      a question line loses `^\d+\.\s*`, an option line loses
      `^[a-dA-D]\)\s*`, and any other line is kept as it is. */
  function ClassifyLine(raw: string): (item: Item)
    ensures item.Paragraph? ==> item.text == Strip(raw)
    ensures !item.Paragraph? ==> |item.text| < |Strip(raw)|
    ensures IsSuffix(item.text, Strip(raw))
  {
    var line := Strip(raw);
    match AnswerKey.QuestionNumber(line)
    case Some(d) =>
      var t := TrimLeft(line[|d| + 1..]);
      TrimLeftSpec(line[|d| + 1..]);
      SuffixOfDrop(line, |d| + 1, t);
      Enunciation(t)
    case None =>
      if IsOptionLine(line) then
        var t := TrimLeft(line[2..]);
        TrimLeftSpec(line[2..]);
        SuffixOfDrop(line, 2, t);
        Alternative(t)
      else
        assert line[0..] == line;
        Paragraph(line)
  }

  predicate IsSuffix(t: string, s: string)
  {
    |t| <= |s| && t == s[|s| - |t|..]
  }

  /** A suffix of what follows the first `k` characters is a suffix. */
  lemma SuffixOfDrop(s: string, k: nat, t: string)
    requires k <= |s| && IsSuffix(t, s[k..])
    ensures IsSuffix(t, s) && |t| <= |s| - k
  {
    assert s[k..][|s[k..]| - |t|..] == s[|s| - |t|..];
  }

  /** Digits, a period and whitespace are what the question pattern
      matches, and the digits are its capture. */
  lemma QuestionNumberOf(digits: string, rest: string)
    requires |digits| > 0 && AllDigits(digits)
    requires |rest| >= 2 && IsSpace(rest[0])
    ensures AnswerKey.QuestionNumber(digits + "." + rest) == Wrappers.Some(digits)
  {
    var line := digits + "." + rest;
    var k := |digits|;
    assert line[..k] == digits && line[k] == '.' && line[k + 1] == rest[0];
    AnswerKey.LeadingDigitsUnique(line, k);
  }

  /** A line that neither starts nor ends with whitespace strips to itself. */
  lemma FrameStripped(head: string, middle: string, text: string)
    requires head != [] && !IsSpace(head[0])
    requires text != [] && !IsSpace(text[|text| - 1])
    ensures Strip(head + middle + text) == head + middle + text
  {
    var line := head + middle + text;
    assert line[0] == head[0];
    assert line[|line| - 1] == text[|text| - 1];
    StripFixed(line);
  }

  /** Whitespace, then a text that does not start with whitespace: the
      whitespace is what `\s*` takes. */
  lemma DropGap(gap: string, text: string)
    requires AllSpaces(gap)
    requires text != [] && !IsSpace(text[0])
    ensures TrimLeft(gap + text) == text
  {
    TrimLeftSpacePrefix(gap, text);
    TrimLeftOfNonSpaceStart(text);
  }

  /** A question line written as digits, a period, whitespace and a text
      reads back as that text: the digits are dropped. */
  lemma ClassifyQuestionLine(digits: string, gap: string, text: string)
    requires |digits| > 0 && AllDigits(digits)
    requires |gap| > 0 && AllSpaces(gap)
    requires text != [] && !IsSpace(text[0]) && !IsSpace(text[|text| - 1])
    ensures ClassifyLine(digits + "." + gap + text) == Enunciation(text)
  {
    var rest := gap + text;
    var line := digits + "." + rest;
    ConcatAssoc(digits + ".", gap, text);
    assert !IsSpace(digits[0]);
    QuestionNumberOf(digits, rest);
    assert line[|digits| + 1..] == rest;
    DropGap(gap, text);
    ClassifyStrippedQuestion(line, digits);
  }

  /** How a line that is its own strip and matches the question pattern
      is classified. */
  lemma ClassifyStrippedQuestion(line: string, digits: string)
    requires Strip(line) == line && AnswerKey.QuestionNumber(line) == Wrappers.Some(digits)
    ensures |digits| + 1 <= |line| && ClassifyLine(line) == Enunciation(TrimLeft(line[|digits| + 1..]))
  {
  }

  /** An option line written as a letter, `)`, whitespace and a text reads
      back as that text: the letter is dropped. */
  lemma ClassifyOptionLine(letter: char, gap: string, text: string)
    requires AnswerKey.IsOptionLetter(letter) && AllSpaces(gap)
    requires text == [] || (!IsSpace(text[0]) && !IsSpace(text[|text| - 1]))
    ensures ClassifyLine([letter, ')'] + gap + text) == Alternative(text)
  {
    if text == [] {
      var head := [letter, ')'];
      assert !IsSpace(letter) && !IsDigit(letter);
      assert head + gap + text == head + gap;
      StripSpaceSuffix(head, gap);
      StripFixed(head);
      AnswerKey.LeadingDigitsUnique(head, 0);
      assert IsOptionLine(head);
      assert head[2..] == [];
      return;
    }
    var line := [letter, ')'] + gap + text;
    assert !IsSpace(letter) && !IsDigit(letter);
    FrameStripped([letter, ')'], gap, text);
    AnswerKey.LeadingDigitsUnique(line, 0);
    assert IsOptionLine(line);
    assert line[2..] == gap + text;
    DropGap(gap, text);
  }

  /** Which branch of the loop a line takes: a question line whenever the
      question pattern matches, an option line only when it does not and
      the option pattern does, and a paragraph holding the whole stripped
      line otherwise. */
  lemma ClassifyKinds(raw: string)
    ensures ClassifyLine(raw).Enunciation? <==> AnswerKey.QuestionNumber(Strip(raw)).Some?
    ensures ClassifyLine(raw).Alternative? <==>
      AnswerKey.QuestionNumber(Strip(raw)).None? && IsOptionLine(Strip(raw))
    ensures ClassifyLine(raw).Paragraph? <==>
      AnswerKey.QuestionNumber(Strip(raw)).None? && !IsOptionLine(Strip(raw))
    ensures ClassifyLine(raw).Paragraph? ==> ClassifyLine(raw) == Paragraph(Strip(raw))
  {
  }

  /** A stripped line that is neither digits, a period and whitespace nor a
      letter a-d or A-D and `)`, the empty line included, is kept whole as
      a paragraph. */
  lemma ClassifyParagraph(raw: string)
    requires !exists k :: (0 < k < |Strip(raw)| - 1 && AllDigits(Strip(raw)[..k])
                          && Strip(raw)[k] == '.' && IsSpace(Strip(raw)[k + 1]))
    requires !IsOptionLine(Strip(raw))
    ensures ClassifyLine(raw) == Paragraph(Strip(raw))
  {
    AnswerKey.QuestionNumberMatches(Strip(raw));
  }

  /** Whitespace around a line changes nothing: each line is stripped. */
  lemma ClassifyIgnoresPadding(p: string, line: string, q: string)
    requires AllSpaces(p) && AllSpaces(q)
    ensures ClassifyLine(p + line + q) == ClassifyLine(line)
  {
    ConcatAssoc(p, line, q);
    StripSpacePrefix(p, line + q);
    StripSpaceSuffix(line, q);
  }

  /** `questoes_raw.strip().split("\n")`: there is always at least one line. */
  function BlockLines(raw: string): (lines: seq<string>)
    ensures |lines| >= 1
    ensures forall i :: 0 <= i < |lines| ==> '\n' !in lines[i]
  {
    SplitPartsFree(Strip(raw), '\n');
    Split(Strip(raw), '\n')
  }

  function Items(lines: seq<string>): (items: seq<Item>)
    ensures |items| == |lines|
    ensures forall i :: 0 <= i < |lines| ==> items[i] == ClassifyLine(lines[i])
  {
    seq(|lines|, i requires 0 <= i < |lines| => ClassifyLine(lines[i]))
  }

  /** Number of question lines among the items. */
  function CountQuestions(items: seq<Item>): nat
  {
    if |items| == 0 then 0
    else (if items[0].Enunciation? then 1 else 0) + CountQuestions(items[1..])
  }

  // ---------------------------------------------------------------------
  // Fragments of the output

  /** One addition to `questoes_html`. */
  datatype Fragment =
    | QuestionOpen(number: nat, text: string)
    | QuestionClose
    | OptionItem(text: string)
    | ParagraphItem(text: string)

  /** The HTML each fragment adds. */
  function Render(f: Fragment): string
  {
    match f
    case QuestionOpen(n, t) => "<li><p><strong>" + NatToString(n) + ". " + t + "</strong></p>\n<ul>\n"
    case QuestionClose => "</ul></li>\n"
    case OptionItem(t) => "<li>" + t + "</li>\n"
    case ParagraphItem(t) => "<p>" + t + "</p>"
  }

  function RenderAll(fs: seq<Fragment>): string
  {
    if |fs| == 0 then [] else Render(fs[0]) + RenderAll(fs[1..])
  }

  function Opens(fs: seq<Fragment>): nat
  {
    if |fs| == 0 then 0 else (if fs[0].QuestionOpen? then 1 else 0) + Opens(fs[1..])
  }

  function Closes(fs: seq<Fragment>): nat
  {
    if |fs| == 0 then 0 else (if fs[0].QuestionClose? then 1 else 0) + Closes(fs[1..])
  }

  /** The numbers written into the question items, in order. */
  function OpenNumbers(fs: seq<Fragment>): seq<nat>
  {
    if |fs| == 0 then []
    else (if fs[0].QuestionOpen? then [fs[0].number] else []) + OpenNumbers(fs[1..])
  }

  /** Every inner list is started outside any other and closed exactly once,
      and only where the next question starts or at the very end: so every
      option or paragraph after a question line sits inside that question's
      `<ul>`. `open` says whether a question's `<ul>` is open. */
  predicate Nested(fs: seq<Fragment>, open: bool)
  {
    if |fs| == 0 then !open
    else match fs[0]
      case QuestionOpen(_, _) => !open && Nested(fs[1..], true)
      case QuestionClose => open && (|fs| == 1 || fs[1].QuestionOpen?) && Nested(fs[1..], false)
      case _ => Nested(fs[1..], open)
  }

  /** The lines the fragments came from, without the numbering and the
      closing tags. */
  function Erase(fs: seq<Fragment>): seq<Item>
  {
    if |fs| == 0 then []
    else
      var rest := Erase(fs[1..]);
      match fs[0]
      case QuestionOpen(_, t) => [Enunciation(t)] + rest
      case QuestionClose => rest
      case OptionItem(t) => [Alternative(t)] + rest
      case ParagraphItem(t) => [Paragraph(t)] + rest
  }

  // ---------------------------------------------------------------------
  // The loop

  /** The counter after an item. */
  function Next(item: Item, numero: nat): nat
  {
    if item.Enunciation? then numero + 1 else numero
  }

  /** The fragments one item adds in front of `rest`, the counter standing
      at `numero`: a question first closes the list of the question before
      it, if there is one. */
  function Fragments(item: Item, numero: nat, rest: seq<Fragment>): seq<Fragment>
  {
    match item
    case Enunciation(t) =>
      var started := [QuestionOpen(numero + 1, t)] + rest;
      if numero > 0 then [QuestionClose] + started else started
    case Alternative(t) => [OptionItem(t)] + rest
    case Paragraph(t) => [ParagraphItem(t)] + rest
  }

  /** The loop of `formatar_questoes_para_html` from the counter `numero`,
      and the final close. Every question line opens one item, and there
      is one close per open, plus one for the question already open. */
  function Scan(items: seq<Item>, numero: nat): (fs: seq<Fragment>)
    ensures Opens(fs) == CountQuestions(items)
    ensures Closes(fs) == CountQuestions(items) + (if numero > 0 then 1 else 0)
    decreases |items|
  {
    if |items| == 0 then
      if numero > 0 then [QuestionClose] else []
    else
      Fragments(items[0], numero, Scan(items[1..], Next(items[0], numero)))
  }

  /** One step of the loop. */
  lemma ScanStep(items: seq<Item>, numero: nat)
    requires |items| > 0
    ensures Scan(items, numero) == Fragments(items[0], numero, Scan(items[1..], Next(items[0], numero)))
  {
  }

  /** The fragments of a block of lines. */
  function Present(raw: string): seq<Fragment>
  {
    Scan(Items(BlockLines(raw)), 0)
  }

  /** `formatar_questoes_para_html(questoes_raw)`: the fragments inside one
      `<ol>`. */
  function FormatQuestions(raw: string): (html: string)
    ensures |html| >= 10
    ensures html[..5] == "<ol>\n" && html[|html| - 5..] == "</ol>"
  {
    var body := RenderAll(Present(raw));
    var html := "<ol>\n" + body + "</ol>";
    assert html[..5] == "<ol>\n";
    assert html[|html| - 5..] == "</ol>";
    html
  }

  // ---------------------------------------------------------------------
  // What the loop keeps

  /** Dropping the numbers and closing tags gives back the lines, in
      order, with nothing added or lost. */
  lemma {:induction false} ScanErases(items: seq<Item>, numero: nat)
    ensures Erase(Scan(items, numero)) == items
    decreases |items|
  {
    if |items| > 0 {
      ScanStep(items, numero);
      ScanErases(items[1..], Next(items[0], numero));
      assert [items[0]] + items[1..] == items;
    }
  }

  /** The questions are numbered on from the counter, one more each time:
      the digits written in the source are not used. */
  lemma {:induction false} ScanNumbers(items: seq<Item>, numero: nat)
    ensures |OpenNumbers(Scan(items, numero))| == CountQuestions(items)
    ensures forall i :: 0 <= i < CountQuestions(items) ==> OpenNumbers(Scan(items, numero))[i] == numero + 1 + i
    decreases |items|
  {
    if |items| > 0 {
      ScanStep(items, numero);
      ScanNumbers(items[1..], Next(items[0], numero));
    }
  }

  /** Each inner list is started when no other is open and closed exactly
      once, only when the next question starts or at the end, so the lines
      after a question sit inside its list. */
  lemma {:induction false} ScanNested(items: seq<Item>, numero: nat)
    ensures Nested(Scan(items, numero), numero > 0)
    decreases |items|
  {
    if |items| > 0 {
      ScanStep(items, numero);
      ScanNested(items[1..], Next(items[0], numero));
    }
  }

  /** Where the closes of a nested sequence fall: each is the last fragment
      or comes right before a question, and while a list is open or a
      question is still to come, the sequence ends with a close. */
  lemma {:induction false} NestedPlacesCloses(fs: seq<Fragment>, open: bool)
    requires Nested(fs, open)
    ensures forall i :: 0 <= i < |fs| && fs[i].QuestionClose? ==> i == |fs| - 1 || fs[i + 1].QuestionOpen?
    ensures (open || Opens(fs) > 0) ==> |fs| > 0 && fs[|fs| - 1].QuestionClose?
    decreases |fs|
  {
    if |fs| > 0 {
      var next := if fs[0].QuestionOpen? then true else if fs[0].QuestionClose? then false else open;
      NestedPlacesCloses(fs[1..], next);
      forall i | 0 < i < |fs|
        ensures fs[i] == fs[1..][i - 1]
      {
      }
    }
  }

  /** The loop writes `</ul></li>` only just before the next question or
      as the last fragment, and ends with it whenever a question was open
      or opened: the options and paragraphs after a question line sit
      inside that question's list. */
  lemma ScanPlacesCloses(items: seq<Item>, numero: nat)
    ensures forall i :: 0 <= i < |Scan(items, numero)| && Scan(items, numero)[i].QuestionClose? ==>
      i == |Scan(items, numero)| - 1 || Scan(items, numero)[i + 1].QuestionOpen?
    ensures numero > 0 || CountQuestions(items) > 0 ==>
      |Scan(items, numero)| > 0 && Scan(items, numero)[|Scan(items, numero)| - 1].QuestionClose?
  {
    ScanNested(items, numero);
    NestedPlacesCloses(Scan(items, numero), numero > 0);
  }

  /** The loop from a zero counter: the fragments carry every item in
      order, the k-th question is numbered k, and there are as many closes
      as questions, each list closed once. */
  lemma ScanFromZero(items: seq<Item>)
    ensures Erase(Scan(items, 0)) == items
    ensures Opens(Scan(items, 0)) == CountQuestions(items) == Closes(Scan(items, 0))
    ensures |OpenNumbers(Scan(items, 0))| == CountQuestions(items)
    ensures forall i :: 0 <= i < CountQuestions(items) ==> OpenNumbers(Scan(items, 0))[i] == i + 1
    ensures Nested(Scan(items, 0), false)
  {
    ScanErases(items, 0);
    ScanNumbers(items, 0);
    ScanNested(items, 0);
  }

  /** The presenter on a whole block: one item per line of the stripped
      block, in order; the k-th question line is numbered k; as many
      `</ul></li>` as question lines, each inner list closed once. */
  lemma PresentSpec(raw: string)
    ensures var items := Items(BlockLines(raw));
      && Erase(Present(raw)) == items
      && Opens(Present(raw)) == CountQuestions(items) == Closes(Present(raw))
      && |OpenNumbers(Present(raw))| == CountQuestions(items)
      && (forall i :: 0 <= i < CountQuestions(items) ==> OpenNumbers(Present(raw))[i] == i + 1)
      && Nested(Present(raw), false)
  {
    ScanFromZero(Items(BlockLines(raw)));
  }

  // ---------------------------------------------------------------------
  // Examples

  /** Blank input still has one (empty) line, which becomes a paragraph. */
  lemma EmptyBlock()
    ensures FormatQuestions("") == "<ol>\n<p></p></ol>"
  {
    assert BlockLines("") == [""];
    var items := Items([""]);
    assert items == [Paragraph("")] by {
      assert AnswerKey.LeadingDigits("") == 0;
      assert ClassifyLine("") == Paragraph("");
    }
    ScanStep(items, 0);
    assert Present("") == [ParagraphItem("")];
    assert RenderAll([ParagraphItem("")]) == "<p></p>";
  }

  /** One question with its four options: one outer item, holding the
      enunciation without its number and an inner list of the four
      options, in order. */
  lemma OneQuestionExample()
    ensures Present("1. What is 2+2?\na) 3\nb) 4\nc) 5\nd) 6")
         == [QuestionOpen(1, "What is 2+2?"), OptionItem("3"), OptionItem("4"),
             OptionItem("5"), OptionItem("6"), QuestionClose]
  {
    var lines := ["1. What is 2+2?", "a) 3", "b) 4", "c) 5", "d) 6"];
    ExampleLines(lines);
    var items := [Enunciation("What is 2+2?"), Alternative("3"), Alternative("4"), Alternative("5"), Alternative("6")];
    ExampleItems(lines, items);
    ExampleScan(items);
  }

  lemma ExampleLines(lines: seq<string>)
    requires lines == ["1. What is 2+2?", "a) 3", "b) 4", "c) 5", "d) 6"]
    ensures BlockLines("1. What is 2+2?\na) 3\nb) 4\nc) 5\nd) 6") == lines
  {
    var raw := "1. What is 2+2?\na) 3\nb) 4\nc) 5\nd) 6";
    ExampleJoin(lines, raw);
    ExampleStripped(raw);
    ExampleLinesOneLine(lines);
    SplitJoin(lines, '\n');
  }

  lemma ExampleLinesOneLine(lines: seq<string>)
    requires lines == ["1. What is 2+2?", "a) 3", "b) 4", "c) 5", "d) 6"]
    ensures forall i :: 0 <= i < |lines| ==> '\n' !in lines[i]
  {
    forall i | 0 <= i < |lines|
      ensures '\n' !in lines[i]
    {
    }
  }

  lemma ExampleJoin(lines: seq<string>, raw: string)
    requires lines == ["1. What is 2+2?", "a) 3", "b) 4", "c) 5", "d) 6"]
    requires raw == "1. What is 2+2?\na) 3\nb) 4\nc) 5\nd) 6"
    ensures Join(lines, "\n") == raw
  {
    ExampleJoinFrom1(lines[1..]);
    JoinFront(lines, "\n");
  }

  lemma ExampleJoinFrom1(lines: seq<string>)
    requires lines == ["a) 3", "b) 4", "c) 5", "d) 6"]
    ensures Join(lines, "\n") == "a) 3\nb) 4\nc) 5\nd) 6"
  {
    ExampleJoinFrom2(lines[1..]);
    JoinFront(lines, "\n");
  }

  lemma ExampleJoinFrom2(lines: seq<string>)
    requires lines == ["b) 4", "c) 5", "d) 6"]
    ensures Join(lines, "\n") == "b) 4\nc) 5\nd) 6"
  {
    ExampleJoinFrom3(lines[1..]);
    JoinFront(lines, "\n");
  }

  lemma ExampleJoinFrom3(lines: seq<string>)
    requires lines == ["c) 5", "d) 6"]
    ensures Join(lines, "\n") == "c) 5\nd) 6"
  {
    JoinFront(lines, "\n");
    assert lines[1..] == ["d) 6"];
  }

  /** Joining two or more parts: the first, the separator, the join of
      the rest. */
  lemma JoinFront(parts: seq<string>, sep: string)
    requires |parts| >= 2
    ensures Join(parts, sep) == parts[0] + sep + Join(parts[1..], sep)
  {
  }

  lemma ExampleStripped(raw: string)
    requires raw == "1. What is 2+2?\na) 3\nb) 4\nc) 5\nd) 6"
    ensures Strip(raw) == raw
  {
    assert raw[0] == '1' && raw[|raw| - 1] == '6';
    StripFixed(raw);
  }

  lemma ExampleItems(lines: seq<string>, items: seq<Item>)
    requires lines == ["1. What is 2+2?", "a) 3", "b) 4", "c) 5", "d) 6"]
    requires items == [Enunciation("What is 2+2?"), Alternative("3"), Alternative("4"), Alternative("5"), Alternative("6")]
    ensures Items(lines) == items
  {
    forall i | 0 <= i < 5
      ensures ClassifyLine(lines[i]) == items[i]
    {
      if i == 0 {
        QuestionExample(lines[0]);
      } else {
        OptionExample(lines[i], lines[i][0], [lines[i][3]]);
      }
    }
    ItemsOfClassified(lines, items);
  }

  /** Lines classified one by one give the items. */
  lemma ItemsOfClassified(lines: seq<string>, items: seq<Item>)
    requires |lines| == |items|
    requires forall i :: 0 <= i < |lines| ==> ClassifyLine(lines[i]) == items[i]
    ensures Items(lines) == items
  {
  }

  lemma QuestionExample(line: string)
    requires line == "1. What is 2+2?"
    ensures ClassifyLine(line) == Enunciation("What is 2+2?")
  {
    var q := "What is 2+2?";
    assert q[0] == 'W' && q[|q| - 1] == '?';
    assert AllSpaces(" ") by { assert " "[0] == ' '; }
    assert AllDigits("1") by { assert "1"[0] == '1'; }
    assert line == "1" + "." + " " + q;
    ClassifyQuestionLine("1", " ", q);
  }

  lemma OptionExample(line: string, letter: char, text: string)
    requires AnswerKey.IsOptionLetter(letter) && |text| == 1 && '0' <= text[0] <= '9'
    requires line == [letter, ')', ' '] + text
    ensures ClassifyLine(line) == Alternative(text)
  {
    assert AllSpaces(" ") by { assert " "[0] == ' '; }
    assert line == [letter, ')'] + " " + text;
    ClassifyOptionLine(letter, " ", text);
  }

  lemma ExampleScan(items: seq<Item>)
    requires items == [Enunciation("What is 2+2?"), Alternative("3"), Alternative("4"), Alternative("5"), Alternative("6")]
    ensures Scan(items, 0) == [QuestionOpen(1, "What is 2+2?"), OptionItem("3"), OptionItem("4"),
                               OptionItem("5"), OptionItem("6"), QuestionClose]
  {
    assert Scan(items[5..], 1) == [QuestionClose];
    ScanStep(items[4..], 1);
    ScanStep(items[3..], 1);
    ScanStep(items[2..], 1);
    ScanStep(items[1..], 1);
    ScanStep(items, 0);
    assert items[4..][1..] == items[5..];
    assert items[3..][1..] == items[4..];
    assert items[2..][1..] == items[3..];
    assert items[1..][1..] == items[2..];
  }
}

=== FILE: tables.dfy ===
/** `processar_tabelas_markdown`: every run of two or more newline-terminated
    lines that hold a `|`, found at the start of the text, at the start of a
    line or right after a blank line, is replaced by an HTML table. The
    second line of the run gives the column alignments.

    Some example lemmas take their literal as a parameter fixed by a
    `requires x == "..."` clause: stated inline, the literal made those
    proofs too costly for the solver. */
module Tables {
  import opened Wrappers
  import opened Text

  // ---------------------------------------------------------------------
  // Column alignment

  datatype Align = Left | Center | Right

  /** The value written after `text-align:`. */
  function AlignName(a: Align): string
  {
    match a
    case Left => "left"
    case Center => "center"
    case Right => "right"
  }

  /** Alignment of one `|`-separated segment of the separator line: colons
      at both ends centre, a trailing colon alone right-aligns, and anything
      else (a leading colon alone, no colon, an empty segment) left-aligns. */
  function SegmentAlign(segment: string): Align
  {
    var c := Strip(segment);
    var lead := |c| > 0 && c[0] == ':';
    var trail := |c| > 0 && c[|c| - 1] == ':';
    if lead && trail then Center
    else if lead then Left
    else if trail then Right
    else Left
  }

  /** The usual Markdown way to write each alignment. */
  function SeparatorFor(a: Align): string
  {
    match a
    case Left => ":---"
    case Center => ":---:"
    case Right => "---:"
  }

  /** Reading a written alignment back gives it, whatever whitespace pads
      the segment. */
  lemma SegmentAlignOfSeparator(a: Align, p: string, q: string)
    requires AllSpaces(p) && AllSpaces(q)
    ensures SegmentAlign(p + SeparatorFor(a) + q) == a
  {
    var sep := SeparatorFor(a);
    assert sep[0] != ' ' && sep[|sep| - 1] != ' ';
    StripPadded(p, sep, q);
  }

  /** The written alignment holds no `|`. */
  lemma SeparatorForHasNoBar(a: Align)
    ensures '|' !in SeparatorFor(a)
  {
    var sep := SeparatorFor(a);
    assert forall i :: 0 <= i < |sep| ==> sep[i] != '|';
  }

  /** The written alignment reads back as itself. */
  lemma SeparatorForReadsBack(a: Align)
    ensures SegmentAlign(SeparatorFor(a)) == a
  {
    SegmentAlignOfSeparator(a, [], []);
    assert [] + SeparatorFor(a) + [] == SeparatorFor(a);
  }

  /** A segment without colons left-aligns. */
  lemma SegmentWithoutColonIsLeft(segment: string)
    requires ':' !in segment
    ensures SegmentAlign(segment) == Left
  {
    StripRemovesOnly(segment);
    var c := Strip(segment);
    if |c| > 0 {
      assert c[0] in multiset(c) && c[|c| - 1] in multiset(c);
    }
  }

  /** One alignment per segment of the separator line. */
  function Alignments(separator: string): seq<Align>
  {
    var parts := Split(separator, '|');
    seq(|parts|, i requires 0 <= i < |parts| => SegmentAlign(parts[i]))
  }

  /** The segments written for a list of alignments. */
  function Separators(aligns: seq<Align>): (segs: seq<string>)
    ensures |segs| == |aligns|
  {
    seq(|aligns|, i requires 0 <= i < |aligns| => SeparatorFor(aligns[i]))
  }

  /** The separator line written for a list of alignments. */
  function SeparatorLine(aligns: seq<Align>): string
  {
    Join(Separators(aligns), "|")
  }

  /** Reading the separator line written for some alignments gives them back. */
  lemma AlignmentsOfSeparatorLine(aligns: seq<Align>)
    requires |aligns| >= 1
    ensures Alignments(SeparatorLine(aligns)) == aligns
  {
    var segs := Separators(aligns);
    forall i | 0 <= i < |segs|
      ensures '|' !in segs[i] && SegmentAlign(segs[i]) == aligns[i]
    {
      SeparatorForHasNoBar(aligns[i]);
      SeparatorForReadsBack(aligns[i]);
    }
    SplitJoin(segs, '|');
    var r := Alignments(SeparatorLine(aligns));
    assert |r| == |aligns|;
    assert forall i :: 0 <= i < |r| ==> r[i] == SegmentAlign(segs[i]);
  }

  // ---------------------------------------------------------------------
  // Cells

  datatype Cell = Cell(text: string, align: Align)

  /** The columns of a line: its `|`-separated pieces, stripped. */
  function Columns(line: string): seq<string>
  {
    var parts := Split(line, '|');
    seq(|parts|, i requires 0 <= i < |parts| => Strip(parts[i]))
  }

  /** Positions of the non-empty columns, in order: the columns that
      produce a cell. */
  function Kept(cols: seq<string>): seq<nat>
    decreases |cols|
  {
    if |cols| == 0 then []
    else
      var n := |cols| - 1;
      Kept(cols[..n]) + (if cols[n] != [] then [n] else [])
  }

  /** `Kept` lists exactly the non-empty columns, each once, in increasing
      order. */
  lemma {:induction false} KeptSpec(cols: seq<string>)
    ensures forall k :: 0 <= k < |Kept(cols)| ==> Kept(cols)[k] < |cols| && cols[Kept(cols)[k]] != []
    ensures forall j, k :: 0 <= j < k < |Kept(cols)| ==> Kept(cols)[j] < Kept(cols)[k]
    ensures forall i :: 0 <= i < |cols| && cols[i] != [] ==> i in Kept(cols)
    decreases |cols|
  {
    if |cols| > 0 {
      var n := |cols| - 1;
      var front := Kept(cols[..n]);
      KeptSpec(cols[..n]);
      assert forall k :: 0 <= k < |front| ==> cols[front[k]] == cols[..n][front[k]];
      assert forall i :: 0 <= i < n ==> cols[..n][i] == cols[i];
    }
  }

  /** Every column is kept when none is empty. */
  lemma {:induction false} KeptAll(cols: seq<string>)
    requires forall i :: 0 <= i < |cols| ==> cols[i] != []
    ensures Kept(cols) == seq(|cols|, i => i)
    decreases |cols|
  {
    if |cols| > 0 {
      var n := |cols| - 1;
      KeptAll(cols[..n]);
    }
  }

  /** A column that is not empty but has no alignment: the lookup
      `alinhamentos[i]` raises `IndexError`. */
  predicate Unaligned(cols: seq<string>, aligns: seq<Align>, i: int)
  {
    0 <= i < |cols| && cols[i] != [] && i >= |aligns|
  }

  /** Why a table cannot be built; both are an `IndexError` in Python. */
  datatype TableError = MissingLine(count: nat) | MissingAlignment(column: nat)

  /** The cells of one row, empty columns skipped, or the first column that
      has no alignment. */
  function RowCells(cols: seq<string>, aligns: seq<Align>): Result<seq<Cell>, TableError>
    decreases |cols|
  {
    if |cols| == 0 then Success([])
    else
      var n := |cols| - 1;
      match RowCells(cols[..n], aligns)
      case Failure(e) => Failure(e)
      case Success(front) =>
        if cols[n] == [] then Success(front)
        else if n < |aligns| then Success(front + [Cell(cols[n], aligns[n])])
        else Failure(MissingAlignment(n))
  }

  /** A row fails exactly when some non-empty column has no alignment, and
      it reports the first such column. */
  lemma {:induction false} RowCellsFailure(cols: seq<string>, aligns: seq<Align>)
    ensures RowCells(cols, aligns).Failure? <==> exists i :: Unaligned(cols, aligns, i)
    ensures RowCells(cols, aligns).Failure? ==>
      var e := RowCells(cols, aligns).error;
      e.MissingAlignment? && Unaligned(cols, aligns, e.column)
      && forall i :: 0 <= i < e.column ==> !Unaligned(cols, aligns, i)
    decreases |cols|
  {
    if |cols| > 0 {
      var n := |cols| - 1;
      RowCellsFailure(cols[..n], aligns);
      assert forall i :: Unaligned(cols[..n], aligns, i) <==> i < n && Unaligned(cols, aligns, i);
      if RowCells(cols[..n], aligns).Success? && Unaligned(cols, aligns, n) {
        assert RowCells(cols, aligns) == Failure(MissingAlignment(n));
      }
    }
  }

  /** A row that succeeds holds one cell per non-empty column, in order,
      with that column's text and alignment. */
  lemma {:induction false} RowCellsSuccess(cols: seq<string>, aligns: seq<Align>)
    ensures RowCells(cols, aligns).Success? ==>
      var cells := RowCells(cols, aligns).value;
      |cells| == |Kept(cols)| &&
      forall k :: 0 <= k < |cells| ==>
        Kept(cols)[k] < |cols| && Kept(cols)[k] < |aligns| &&
        cells[k] == Cell(cols[Kept(cols)[k]], aligns[Kept(cols)[k]])
    decreases |cols|
  {
    KeptSpec(cols);
    if |cols| > 0 {
      var n := |cols| - 1;
      RowCellsSuccess(cols[..n], aligns);
      KeptSpec(cols[..n]);
      var front := Kept(cols[..n]);
      assert forall k :: 0 <= k < |front| ==> cols[front[k]] == cols[..n][front[k]];
    }
  }

  datatype Table = Table(header: seq<Cell>, body: seq<seq<Cell>>)

  /** The rows after the header and separator, in order; the first failure
      wins. */
  function BodyCells(lines: seq<string>, aligns: seq<Align>): Result<seq<seq<Cell>>, TableError>
    decreases |lines|
  {
    if |lines| == 0 then Success([])
    else
      match RowCells(Columns(lines[0]), aligns)
      case Failure(e) => Failure(e)
      case Success(row) =>
        match BodyCells(lines[1..], aligns)
        case Failure(e) => Failure(e)
        case Success(rows) => Success([row] + rows)
  }

  /** The body fails exactly when one of its rows does; otherwise it holds
      each row's cells, in order. */
  lemma {:induction false} BodyCellsSpec(lines: seq<string>, aligns: seq<Align>)
    ensures BodyCells(lines, aligns).Failure? <==>
      exists i :: 0 <= i < |lines| && RowCells(Columns(lines[i]), aligns).Failure?
    ensures BodyCells(lines, aligns).Success? ==>
      var rows := BodyCells(lines, aligns).value;
      |rows| == |lines| &&
      forall i :: 0 <= i < |lines| ==> RowCells(Columns(lines[i]), aligns) == Success(rows[i])
    decreases |lines|
  {
    if |lines| > 0 {
      BodyCellsSpec(lines[1..], aligns);
      assert forall i :: 1 <= i < |lines| ==> lines[1..][i - 1] == lines[i];
    }
  }

  /** The table of `substituir_tabela` for its cleaned lines: header, then
      separator, then body rows. */
  function BuildTable(lines: seq<string>): Result<Table, TableError>
  {
    if |lines| < 2 then Failure(MissingLine(|lines|))
    else
      var aligns := Alignments(lines[1]);
      match RowCells(Columns(lines[0]), aligns)
      case Failure(e) => Failure(e)
      case Success(header) =>
        match BodyCells(lines[2..], aligns)
        case Failure(e) => Failure(e)
        case Success(body) => Success(Table(header, body))
  }

  /** Building fails exactly when there are fewer than two lines, or when the
      header or a body row has a non-empty column beyond the separator's
      segments. */
  lemma BuildTableFailure(lines: seq<string>)
    ensures BuildTable(lines).Failure? <==>
      |lines| < 2 ||
      exists i, j :: 0 <= i < |lines| && i != 1 && Unaligned(Columns(lines[i]), Alignments(lines[1]), j)
  {
    if |lines| >= 2 {
      var aligns := Alignments(lines[1]);
      RowCellsFailure(Columns(lines[0]), aligns);
      BodyCellsSpec(lines[2..], aligns);
      forall i | 2 <= i < |lines|
        ensures RowCells(Columns(lines[i]), aligns).Failure? <==>
                exists j :: Unaligned(Columns(lines[i]), aligns, j)
      {
        RowCellsFailure(Columns(lines[i]), aligns);
      }
      assert forall i :: 2 <= i < |lines| ==> lines[2..][i - 2] == lines[i];
    }
  }

  // ---------------------------------------------------------------------
  // Writing a table and reading it back

  /** A cell text as a Markdown row can hold it: not empty, no `|`, and no
      whitespace at either end. */
  predicate CellText(t: string)
  {
    t != [] && '|' !in t && !IsSpace(t[0]) && !IsSpace(t[|t| - 1])
  }

  /** The cells of a row of texts, aligned column by column. */
  function Aligned(texts: seq<string>, aligns: seq<Align>): seq<Cell>
    requires |texts| <= |aligns|
  {
    seq(|texts|, i requires 0 <= i < |texts| => Cell(texts[i], aligns[i]))
  }

  /** Cell texts are their own strip. */
  lemma CellTextsStripped(texts: seq<string>)
    requires forall i :: 0 <= i < |texts| ==> CellText(texts[i])
    ensures forall i :: 0 <= i < |texts| ==> Strip(texts[i]) == texts[i]
  {
    forall i | 0 <= i < |texts|
      ensures Strip(texts[i]) == texts[i]
    {
      StripFixed(texts[i]);
    }
  }

  /** A line whose pieces are already stripped has those pieces as
      columns. */
  lemma ColumnsOfStrippedPieces(line: string, texts: seq<string>)
    requires Split(line, '|') == texts
    requires forall i :: 0 <= i < |texts| ==> Strip(texts[i]) == texts[i]
    ensures Columns(line) == texts
  {
    var cols := Columns(line);
    assert |cols| == |texts|;
    assert forall i :: 0 <= i < |texts| ==> cols[i] == Strip(texts[i]);
  }

  /** Columns of a row written from cell texts are those texts. */
  lemma ColumnsOfRow(texts: seq<string>)
    requires |texts| >= 1 && forall i :: 0 <= i < |texts| ==> CellText(texts[i])
    ensures Columns(Join(texts, "|")) == texts
  {
    CellTextsStripped(texts);
    assert forall i :: 0 <= i < |texts| ==> '|' !in texts[i];
    SplitJoin(texts, '|');
    ColumnsOfStrippedPieces(Join(texts, "|"), texts);
  }

  /** Cells for columns that are all non-empty and all aligned. */
  lemma RowCellsOfFullRow(cols: seq<string>, aligns: seq<Align>)
    requires |cols| <= |aligns| && forall i :: 0 <= i < |cols| ==> cols[i] != []
    ensures RowCells(cols, aligns) == Success(Aligned(cols, aligns))
  {
    RowCellsFailure(cols, aligns);
    assert forall i :: !Unaligned(cols, aligns, i);
    RowCellsSuccess(cols, aligns);
    KeptAll(cols);
    var cells := RowCells(cols, aligns).value;
    assert |cells| == |cols|;
    forall k | 0 <= k < |cols|
      ensures cells[k] == Cell(cols[k], aligns[k])
    {
      assert Kept(cols)[k] == k;
    }
    assert cells == Aligned(cols, aligns);
  }

  /** A row written from cell texts reads back as those cells. */
  lemma RowCellsOfRow(texts: seq<string>, aligns: seq<Align>)
    requires |texts| >= 1 && |texts| <= |aligns|
    requires forall i :: 0 <= i < |texts| ==> CellText(texts[i])
    ensures RowCells(Columns(Join(texts, "|")), aligns) == Success(Aligned(texts, aligns))
  {
    ColumnsOfRow(texts);
    RowCellsOfFullRow(texts, aligns);
  }

  /** The lines of a Markdown table: header, separator, body rows. */
  function TableSource(header: seq<string>, aligns: seq<Align>, body: seq<seq<string>>): (lines: seq<string>)
    ensures |lines| == |body| + 2
  {
    [Join(header, "|"), SeparatorLine(aligns)]
      + seq(|body|, i requires 0 <= i < |body| => Join(body[i], "|"))
  }

  /** A table built from lines whose rows each give their cells. */
  lemma BuildTableOfRows(lines: seq<string>, header: seq<Cell>, body: seq<seq<Cell>>)
    requires |lines| == |body| + 2
    requires RowCells(Columns(lines[0]), Alignments(lines[1])) == Success(header)
    requires forall i :: 0 <= i < |body| ==>
      RowCells(Columns(lines[i + 2]), Alignments(lines[1])) == Success(body[i])
    ensures BuildTable(lines) == Success(Table(header, body))
  {
    var rest := lines[2..];
    var aligns := Alignments(lines[1]);
    forall i | 0 <= i < |rest|
      ensures RowCells(Columns(rest[i]), aligns) == Success(body[i])
    {
      assert rest[i] == lines[i + 2];
    }
    BodyCellsSpec(rest, aligns);
    var r := BodyCells(rest, aligns);
    assert r.Success?;
    assert r.value == body;
  }

  /** A well-formed table written out and read back is the table. */
  lemma BuildTableOfSource(header: seq<string>, aligns: seq<Align>, body: seq<seq<string>>)
    requires |aligns| >= 1
    requires |header| >= 1 && |header| <= |aligns|
    requires forall j :: 0 <= j < |header| ==> CellText(header[j])
    requires forall i :: 0 <= i < |body| ==>
      |body[i]| >= 1 && |body[i]| <= |aligns| && forall j :: 0 <= j < |body[i]| ==> CellText(body[i][j])
    ensures BuildTable(TableSource(header, aligns, body)) ==
      Success(Table(Aligned(header, aligns),
                    seq(|body|, i requires 0 <= i < |body| => Aligned(body[i], aligns))))
  {
    var lines := TableSource(header, aligns, body);
    var cells := seq(|body|, i requires 0 <= i < |body| => Aligned(body[i], aligns));
    AlignmentsOfSeparatorLine(aligns);
    assert lines[1] == SeparatorLine(aligns);
    assert lines[0] == Join(header, "|");
    RowCellsOfRow(header, aligns);
    forall i | 0 <= i < |body|
      ensures RowCells(Columns(lines[i + 2]), aligns) == Success(cells[i])
    {
      var line := lines[i + 2];
      assert line == Join(body[i], "|");
      RowCellsOfRow(body[i], aligns);
    }
    BuildTableOfRows(lines, Aligned(header, aligns), cells);
  }

  // ---------------------------------------------------------------------
  // HTML

  function CellHtml(tag: string, c: Cell): string
  {
    "<" + tag + " style=\"text-align:" + AlignName(c.align) + "\">" + c.text + "</" + tag + ">"
  }

  function CellsHtml(tag: string, cells: seq<Cell>): string
  {
    if |cells| == 0 then [] else CellHtml(tag, cells[0]) + CellsHtml(tag, cells[1..])
  }

  function RowsHtml(rows: seq<seq<Cell>>): string
  {
    if |rows| == 0 then [] else "<tr>" + CellsHtml("td", rows[0]) + "</tr>" + RowsHtml(rows[1..])
  }

  /** `''.join(html)` at the end of `substituir_tabela`. */
  function TableHtml(t: Table): string
  {
    "<table><thead><tr>" + CellsHtml("th", t.header) + "</tr></thead><tbody>"
      + RowsHtml(t.body) + "</tbody></table>"
  }

  /** The HTML of a row of cells holds no newline when their texts hold none. */
  lemma {:induction false} CellsHtmlOneLine(tag: string, cells: seq<Cell>)
    requires '\n' !in tag
    requires forall k :: 0 <= k < |cells| ==> '\n' !in cells[k].text
    ensures '\n' !in CellsHtml(tag, cells)
    decreases |cells|
  {
    if |cells| > 0 {
      CellsHtmlOneLine(tag, cells[1..]);
      CellHtmlOneLine(tag, cells[0]);
      NotInConcat('\n', CellHtml(tag, cells[0]), CellsHtml(tag, cells[1..]));
    }
  }

  /** The HTML of one cell holds no newline when its text holds none. */
  lemma CellHtmlOneLine(tag: string, c: Cell)
    requires '\n' !in tag && '\n' !in c.text
    ensures '\n' !in CellHtml(tag, c)
  {
    assert '\n' !in AlignName(c.align);
  }

  lemma TableFrameOneLine(open: string, middle: string, close: string)
    requires open == "<table><thead><tr>" && middle == "</tr></thead><tbody>"
    requires close == "</tbody></table>"
    ensures '\n' !in open && '\n' !in middle && '\n' !in close
  {
  }

  lemma NotInConcat(x: char, a: string, b: string)
    requires x !in a && x !in b
    ensures x !in a + b
  {
  }

  /** The same for the body rows. */
  lemma {:induction false} RowsHtmlOneLine(rows: seq<seq<Cell>>)
    requires forall i, k :: 0 <= i < |rows| && 0 <= k < |rows[i]| ==> '\n' !in rows[i][k].text
    ensures '\n' !in RowsHtml(rows)
    decreases |rows|
  {
    if |rows| > 0 {
      CellsHtmlOneLine("td", rows[0]);
      RowsHtmlOneLine(rows[1..]);
    }
  }

  /** The HTML of a table is a single line when its cells are. */
  lemma TableHtmlOneLine(t: Table)
    requires forall k :: 0 <= k < |t.header| ==> '\n' !in t.header[k].text
    requires forall i, k :: 0 <= i < |t.body| && 0 <= k < |t.body[i]| ==> '\n' !in t.body[i][k].text
    ensures '\n' !in TableHtml(t)
  {
    var head, rows := CellsHtml("th", t.header), RowsHtml(t.body);
    CellsHtmlOneLine("th", t.header);
    RowsHtmlOneLine(t.body);
    var open, middle, close := "<table><thead><tr>", "</tr></thead><tbody>", "</tbody></table>";
    TableFrameOneLine(open, middle, close);
    NotInConcat('\n', open, head);
    NotInConcat('\n', open + head, middle);
    NotInConcat('\n', open + head + middle, rows);
    NotInConcat('\n', open + head + middle + rows, close);
  }

  // ---------------------------------------------------------------------
  // Finding tables

  /** A line of a table: it holds a `|` and no newline. */
  predicate PipeLine(row: string)
  {
    '|' in row && '\n' !in row
  }

  /** The text of some rows, each ended by a newline. */
  function RunText(rows: seq<string>): string
  {
    if |rows| == 0 then [] else rows[0] + "\n" + RunText(rows[1..])
  }

  /** `t` starts with a newline-terminated line that holds a `|`:
      `[^\n]*\|[^\n]*\n` matches there. */
  predicate StartsWithPipeLine(t: string)
  {
    '\n' in t && '|' in t[..IndexOf(t, '\n')]
  }

  /** The rows matched by `([^\n]*\|[^\n]*\n)*` at the start of `t`,
      taken greedily. */
  function PipeRun(t: string): seq<string>
    decreases |t|
  {
    if StartsWithPipeLine(t) then
      var k := IndexOf(t, '\n');
      [t[..k]] + PipeRun(t[k + 1..])
    else []
  }

  /** The run is made of table lines. */
  lemma {:induction false} PipeRunLines(t: string)
    ensures forall i :: 0 <= i < |PipeRun(t)| ==> PipeLine(PipeRun(t)[i])
    decreases |t|
  {
    if StartsWithPipeLine(t) {
      var k := IndexOf(t, '\n');
      PipeRunLines(t[k + 1..]);
    }
  }

  /** The text of a run is its first line, with the newline after it, and
      then the text of the rest of the run. */
  lemma PipeRunStep(t: string, k: nat)
    requires StartsWithPipeLine(t) && k == IndexOf(t, '\n')
    ensures RunText(PipeRun(t)) == t[..k + 1] + RunText(PipeRun(t[k + 1..]))
    ensures |RunText(PipeRun(t))| == k + 1 + |RunText(PipeRun(t[k + 1..]))|
  {
    var rows := PipeRun(t);
    var r := RunText(PipeRun(t[k + 1..]));
    assert rows[0] == t[..k] && rows[1..] == PipeRun(t[k + 1..]);
    assert RunText(rows) == t[..k] + "\n" + r;
    TakeOneMore(t, k);
  }

  /** A prefix one character longer. */
  lemma TakeOneMore(t: string, k: nat)
    requires k < |t|
    ensures t[..k + 1] == t[..k] + [t[k]]
  {
  }

  /** The rows of the run, each with its newline, are a prefix of the text. */
  lemma {:induction false} PipeRunPrefix(t: string)
    ensures StartsWith(t, RunText(PipeRun(t)))
    decreases |t|
  {
    if StartsWithPipeLine(t) {
      var k := IndexOf(t, '\n');
      PipeRunPrefix(t[k + 1..]);
      PipeRunStep(t, k);
      PrefixAfter(t, k + 1, RunText(PipeRun(t[k + 1..])));
    }
  }

  /** The run is a prefix of the text, and the line after it is not a table
      line: the run cannot be extended. */
  lemma {:induction false} PipeRunSpec(t: string)
    ensures StartsWith(t, RunText(PipeRun(t)))
    ensures !StartsWithPipeLine(t[|RunText(PipeRun(t))|..])
    decreases |t|
  {
    PipeRunPrefix(t);
    if StartsWithPipeLine(t) {
      var k := IndexOf(t, '\n');
      var r := RunText(PipeRun(t[k + 1..]));
      PipeRunSpec(t[k + 1..]);
      PipeRunStep(t, k);
      NotPipeLineAfter(t, |RunText(PipeRun(t))|, k + 1, |r|);
    } else {
      assert t[0..] == t;
    }
  }

  /** What follows `a` and then `b` more characters follows `a + b`. */
  lemma NotPipeLineAfter(t: string, m: nat, a: nat, b: nat)
    requires m == a + b <= |t| && !StartsWithPipeLine(t[a..][b..])
    ensures !StartsWithPipeLine(t[m..])
  {
    assert t[m..] == t[a..][b..];
  }

  /** Every row adds at least its newline. */
  lemma {:induction false} RunTextLength(rows: seq<string>)
    ensures |RunText(rows)| >= |rows|
    decreases |rows|
  {
    if |rows| > 0 {
      RunTextLength(rows[1..]);
    }
  }

  /** Newlines in a text. */
  function Newlines(s: string): nat
  {
    if |s| == 0 then 0 else (if s[0] == '\n' then 1 else 0) + Newlines(s[1..])
  }

  /** The count is the number of newline characters in the text, the
      multiplicity `multiset(s)['\n']` used for lines elsewhere. */
  lemma {:induction false} NewlinesIsMultisetCount(s: string)
    ensures Newlines(s) == multiset(s)['\n']
    decreases |s|
  {
    if |s| > 0 {
      NewlinesIsMultisetCount(s[1..]);
      assert s == [s[0]] + s[1..];
      assert multiset(s) == multiset([s[0]]) + multiset(s[1..]);
    }
  }

  /** A text without a newline character counts none. */
  lemma {:induction false} NoNewlines(s: string)
    requires '\n' !in s
    ensures Newlines(s) == 0
  {
    if |s| > 0 {
      assert s[0] in s;
      NoNewlines(s[1..]);
    }
  }

  /** A run of table lines holds one newline per row. */
  lemma {:induction false} RunTextNewlines(rows: seq<string>)
    requires forall i :: 0 <= i < |rows| ==> PipeLine(rows[i])
    ensures Newlines(RunText(rows)) == |rows|
    decreases |rows|
  {
    if |rows| > 0 {
      RunTextNewlines(rows[1..]);
      assert PipeLine(rows[0]);
      NoNewlines(rows[0]);
      NewlinesConcat(rows[0], "\n");
      NewlinesConcat(rows[0] + "\n", RunText(rows[1..]));
    }
  }

  /** `[l.strip() for l in lines if l.strip()]` */
  function NonBlank(lines: seq<string>): seq<string>
  {
    if |lines| == 0 then []
    else (if Strip(lines[0]) != [] then [Strip(lines[0])] else []) + NonBlank(lines[1..])
  }

  /** The cleaned lines of a matched table: the match stripped, split at
      newlines, each line stripped, blank lines dropped. */
  function TableLines(group: string): seq<string>
  {
    NonBlank(Split(Strip(group), '\n'))
  }

  /** `substituir_tabela`: the HTML that replaces a match. */
  function ReplaceTable(group: string): Result<string, TableError>
  {
    Html(BuildTable(TableLines(group)))
  }

  /** The HTML of a table, or the error that stopped it. */
  function Html(t: Result<Table, TableError>): Result<string, TableError>
  {
    match t
    case Failure(e) => Failure(e)
    case Success(table) => Success(TableHtml(table))
  }

  /** One piece of output followed by the next; the first error wins, as
      the exception raised first ends `re.sub`. */
  function Glue(first: Result<string, TableError>, next: Result<string, TableError>): Result<string, TableError>
  {
    match first
    case Failure(e) => Failure(e)
    case Success(a) =>
      match next
      case Failure(e) => Failure(e)
      case Success(b) => Success(a + b)
  }

  /** Where a match of the table pattern starts at the front of `s`, the
      number of characters it holds before its first row: 2 for the
      `\n\n` alternative, which is tried first, and 0 for `^`, which
      matches at the start of a line (`bol`). */
  function MatchPrefix(s: string, bol: bool): Option<nat>
  {
    if StartsWith(s, "\n\n") && |PipeRun(s[2..])| >= 2 then Some(2)
    else if bol && |PipeRun(s)| >= 2 then Some(0)
    else None
  }

  /** Where a match that starts its rows `k` characters into `s` ends:
      after the greedy run of table lines there. */
  function RunEnd(s: string, k: nat): (n: nat)
    requires k <= |s|
    ensures k + |PipeRun(s[k..])| <= n <= |s|
  {
    PipeRunPrefix(s[k..]);
    RunTextLength(PipeRun(s[k..]));
    k + |RunText(PipeRun(s[k..]))|
  }

  /** `padrao_tabela.sub(replace, s)`, where `^` matches at the front of
      `s` exactly when `bol`. A match and the rows it takes are replaced by
      what `replace` makes of the matched text, and the scan resumes after
      them; where nothing matches, one character is copied. An error from
      `replace` stops the scan. */
  function Sub(s: string, bol: bool, replace: string -> Result<string, TableError>): Result<string, TableError>
    decreases |s|
  {
    if |s| == 0 then Success([])
    else
      match MatchPrefix(s, bol)
      case Some(k) =>
        var n := RunEnd(s, k);
        Glue(replace(s[..n]), Sub(s[n..], true, replace))
      case None =>
        Glue(Success([s[0]]), Sub(s[1..], s[0] == '\n', replace))
  }

  /** `processar_tabelas_markdown` */
  function ProcessTables(text: string): Result<string, TableError>
  {
    Sub(text, true, ReplaceTable)
  }

  // ---------------------------------------------------------------------
  // The cleaned lines of a match are its rows, stripped

  /** The rows, each stripped. */
  function Stripped(rows: seq<string>): (lines: seq<string>)
    ensures |lines| == |rows|
  {
    seq(|rows|, i requires 0 <= i < |rows| => Strip(rows[i]))
  }

  /** Newline-terminated rows are the rows joined by newlines, plus one. */
  lemma {:induction false} RunTextJoin(rows: seq<string>)
    requires |rows| >= 1
    ensures RunText(rows) == Join(rows, "\n") + "\n"
    decreases |rows|
  {
    if |rows| > 1 {
      RunTextJoin(rows[1..]);
    }
  }

  /** Stripping a match strips the rows joined by newlines: the blank line
      in front and the final newline go. */
  lemma StripOfMatch(p: string, rows: seq<string>)
    requires AllSpaces(p) && |rows| >= 1
    ensures Strip(p + RunText(rows)) == Strip(Join(rows, "\n"))
  {
    var j := Join(rows, "\n");
    RunTextJoin(rows);
    StripSpacePrefix(p, j + "\n");
    assert AllSpaces("\n");
    StripSpaceSuffix(j, "\n");
  }

  /** Leading whitespace of the joined rows is that of the first row. */
  lemma TrimLeftJoin(rows: seq<string>)
    requires |rows| >= 2 && !AllSpaces(rows[0])
    ensures TrimLeft(Join(rows, "\n")) == Join([TrimLeft(rows[0])] + rows[1..], "\n")
  {
    var tail := "\n" + Join(rows[1..], "\n");
    assert Join(rows, "\n") == rows[0] + tail;
    TrimLeftConcat(rows[0], tail);
    var rows1 := [TrimLeft(rows[0])] + rows[1..];
    assert rows1[1..] == rows[1..];
    assert Join(rows1, "\n") == TrimLeft(rows[0]) + tail;
  }

  /** Trailing whitespace of the joined rows is that of the last row. */
  lemma TrimRightJoin(rows: seq<string>)
    requires |rows| >= 2 && !AllSpaces(rows[|rows| - 1])
    ensures var n := |rows| - 1;
      TrimRight(Join(rows, "\n")) == Join(rows[..n] + [TrimRight(rows[n])], "\n")
  {
    var n := |rows| - 1;
    assert rows == rows[..n] + [rows[n]];
    JoinSnoc(rows[..n], rows[n], "\n");
    var front := Join(rows[..n], "\n") + "\n";
    TrimRightConcat(front, rows[n]);
    JoinSnoc(rows[..n], TrimRight(rows[n]), "\n");
  }

  /** The lines of a stripped match: the first row without its leading
      whitespace, the middle rows as they are, the last row without its
      trailing whitespace. */
  function MatchLines(rows: seq<string>): seq<string>
    requires |rows| >= 2
  {
    var n := |rows| - 1;
    [TrimLeft(rows[0])] + rows[1..n] + [TrimRight(rows[n])]
  }

  /** Replacing the first element, then the last. */
  lemma ReplaceEnds<T>(xs: seq<T>, first: T, last: T)
    requires |xs| >= 2
    ensures var n := |xs| - 1;
      ([first] + xs[1..])[n] == xs[n] &&
      ([first] + xs[1..])[..n] + [last] == [first] + xs[1..n] + [last]
  {
  }

  /** Stripping rows joined by newlines trims the first row on the left and
      the last row on the right. */
  lemma StripJoin(rows: seq<string>)
    requires |rows| >= 2 && !AllSpaces(rows[0]) && !AllSpaces(rows[|rows| - 1])
    ensures Strip(Join(rows, "\n")) == Join(MatchLines(rows), "\n")
  {
    var n := |rows| - 1;
    var rows1 := [TrimLeft(rows[0])] + rows[1..];
    ReplaceEnds(rows, TrimLeft(rows[0]), TrimRight(rows[n]));
    calc {
      Strip(Join(rows, "\n"));
      TrimRight(TrimLeft(Join(rows, "\n")));
      { TrimLeftJoin(rows); }
      TrimRight(Join(rows1, "\n"));
      { TrimRightJoin(rows1); }
      Join(MatchLines(rows), "\n");
    }
  }

  /** A row that holds a `|` is not blank, and neither is its strip. */
  lemma PipeLineNotBlank(row: string)
    requires PipeLine(row)
    ensures !AllSpaces(row) && Strip(row) != []
  {
    StripKeeps(row, '|');
    var i :| 0 <= i < |row| && row[i] == '|';
  }

  /** Dropping whitespace keeps a line free of newlines. */
  lemma TrimmedOneLine(row: string)
    requires '\n' !in row
    ensures '\n' !in TrimLeft(row) && '\n' !in TrimRight(row)
  {
    TrimLeftSpec(row);
    TrimRightSpec(row);
  }

  /** Lines that strip to the given non-empty lines are kept, stripped. */
  lemma {:induction false} NonBlankOfStripped(lines: seq<string>, rows: seq<string>)
    requires |lines| == |rows|
    requires forall i :: 0 <= i < |rows| ==> Strip(lines[i]) == Strip(rows[i]) != []
    ensures NonBlank(lines) == Stripped(rows)
    decreases |rows|
  {
    if |rows| > 0 {
      forall i | 0 <= i < |rows| - 1
        ensures Strip(lines[1..][i]) == Strip(rows[1..][i]) != []
      {
        assert lines[1..][i] == lines[i + 1] && rows[1..][i] == rows[i + 1];
      }
      NonBlankOfStripped(lines[1..], rows[1..]);
      StrippedCons(rows);
    }
  }

  /** The stripped rows are the first row stripped, then the rest. */
  lemma StrippedCons(rows: seq<string>)
    requires |rows| > 0
    ensures Stripped(rows) == [Strip(rows[0])] + Stripped(rows[1..])
  {
    var a, b := Stripped(rows), [Strip(rows[0])] + Stripped(rows[1..]);
    assert |a| == |b|;
    forall i | 0 <= i < |a|
      ensures a[i] == b[i]
    {
      if i > 0 {
        assert rows[1..][i - 1] == rows[i];
      }
    }
  }

  lemma MiddleKept<T>(xs: seq<T>, first: T, last: T)
    requires |xs| >= 2
    ensures var n := |xs| - 1;
      var ys := [first] + xs[1..n] + [last];
      |ys| == |xs| && ys[0] == first && ys[n] == last &&
      forall i :: 0 < i < n ==> ys[i] == xs[i]
  {
  }

  /** The lines of a stripped match hold no newline and strip like the rows. */
  lemma MatchLinesFacts(rows: seq<string>)
    requires |rows| >= 2
    requires forall i :: 0 <= i < |rows| ==> PipeLine(rows[i])
    ensures var lines := MatchLines(rows);
      |lines| == |rows| &&
      (forall i :: 0 <= i < |lines| ==> '\n' !in lines[i]) &&
      (forall i :: 0 <= i < |rows| ==> Strip(lines[i]) == Strip(rows[i]) != [])
  {
    var n := |rows| - 1;
    var lines := MatchLines(rows);
    MiddleKept(rows, TrimLeft(rows[0]), TrimRight(rows[n]));
    forall i | 0 <= i < |rows|
      ensures '\n' !in lines[i] && Strip(lines[i]) == Strip(rows[i]) != []
    {
      PipeLineNotBlank(rows[i]);
      if i == 0 {
        TrimmedOneLine(rows[0]);
        StripOfTrimmedLeft(rows[0]);
      } else if i == n {
        TrimmedOneLine(rows[n]);
        StripOfTrimmedRight(rows[n]);
      }
    }
  }

  /** The cleaned lines of a match preceded by whitespace (nothing, or the
      blank line of the `\n\n` alternative) are exactly its rows, stripped:
      the strip, split and filter of `substituir_tabela` amount to
      stripping each row. */
  lemma TableLinesOfMatch(p: string, rows: seq<string>)
    requires AllSpaces(p) && |rows| >= 2
    requires forall i :: 0 <= i < |rows| ==> PipeLine(rows[i])
    ensures TableLines(p + RunText(rows)) == Stripped(rows)
  {
    var n := |rows| - 1;
    PipeLineNotBlank(rows[0]);
    PipeLineNotBlank(rows[n]);
    StripOfMatch(p, rows);
    StripJoin(rows);
    var lines := MatchLines(rows);
    MatchLinesFacts(rows);
    SplitJoin(lines, '\n');
    NonBlankOfStripped(lines, rows);
  }

  // ---------------------------------------------------------------------
  // The HTML that replaces a match is one line

  lemma NonBlankOneLine(lines: seq<string>)
    requires forall i :: 0 <= i < |lines| ==> '\n' !in lines[i]
    ensures forall j :: 0 <= j < |NonBlank(lines)| ==> '\n' !in NonBlank(lines)[j]
    decreases |lines|
  {
    if |lines| > 0 {
      StripKeepsOut(lines[0], '\n');
      NonBlankOneLine(lines[1..]);
    }
  }

  lemma ColumnsOneLine(line: string)
    requires '\n' !in line
    ensures forall i :: 0 <= i < |Columns(line)| ==> '\n' !in Columns(line)[i]
  {
    var parts := Split(line, '|');
    SplitKeepsOut(line, '|', '\n');
    forall i | 0 <= i < |parts|
      ensures '\n' !in Strip(parts[i])
    {
      StripKeepsOut(parts[i], '\n');
    }
  }

  lemma RowCellsOneLine(cols: seq<string>, aligns: seq<Align>)
    requires forall i :: 0 <= i < |cols| ==> '\n' !in cols[i]
    ensures RowCells(cols, aligns).Success? ==>
      forall k :: 0 <= k < |RowCells(cols, aligns).value| ==> '\n' !in RowCells(cols, aligns).value[k].text
  {
    RowCellsSuccess(cols, aligns);
  }

  lemma LineCellsOneLine(line: string, aligns: seq<Align>, cells: seq<Cell>)
    requires '\n' !in line && RowCells(Columns(line), aligns) == Success(cells)
    ensures forall k :: 0 <= k < |cells| ==> '\n' !in cells[k].text
  {
    ColumnsOneLine(line);
    RowCellsOneLine(Columns(line), aligns);
  }

  /** A built table takes its header from the first line and its body
      rows from the lines after the separator. */
  lemma BuildTableParts(lines: seq<string>)
    requires BuildTable(lines).Success?
    ensures var t := BuildTable(lines).value;
      |lines| >= 2 && |t.body| == |lines| - 2 &&
      RowCells(Columns(lines[0]), Alignments(lines[1])) == Success(t.header) &&
      forall i :: 0 <= i < |t.body| ==>
        RowCells(Columns(lines[i + 2]), Alignments(lines[1])) == Success(t.body[i])
  {
    var t := BuildTable(lines).value;
    var rest := lines[2..];
    var aligns := Alignments(lines[1]);
    BodyCellsSpec(rest, aligns);
    assert forall i :: 0 <= i < |rest| ==> rest[i] == lines[i + 2];
  }

  lemma BodyOneLine(lines: seq<string>, t: Table)
    requires forall i :: 0 <= i < |lines| ==> '\n' !in lines[i]
    requires |lines| >= 2 && |t.body| == |lines| - 2
    requires forall i :: 0 <= i < |t.body| ==>
      RowCells(Columns(lines[i + 2]), Alignments(lines[1])) == Success(t.body[i])
    ensures forall i, k :: 0 <= i < |t.body| && 0 <= k < |t.body[i]| ==> '\n' !in t.body[i][k].text
  {
    forall i | 0 <= i < |t.body|
      ensures forall k :: 0 <= k < |t.body[i]| ==> '\n' !in t.body[i][k].text
    {
      LineCellsOneLine(lines[i + 2], Alignments(lines[1]), t.body[i]);
    }
  }

  lemma BuildTableOneLine(lines: seq<string>)
    requires forall i :: 0 <= i < |lines| ==> '\n' !in lines[i]
    ensures BuildTable(lines).Success? ==> '\n' !in TableHtml(BuildTable(lines).value)
  {
    if BuildTable(lines).Success? {
      var t := BuildTable(lines).value;
      BuildTableParts(lines);
      LineCellsOneLine(lines[0], Alignments(lines[1]), t.header);
      BodyOneLine(lines, t);
      TableHtmlOneLine(t);
    }
  }

  /** What replaces a match holds no newline. */
  lemma ReplaceTableOneLine(group: string)
    ensures ReplaceTable(group).Success? ==> '\n' !in ReplaceTable(group).value
  {
    var parts := Split(Strip(group), '\n');
    SplitPartsFree(Strip(group), '\n');
    NonBlankOneLine(parts);
    BuildTableOneLine(NonBlank(parts));
  }

  lemma ReplaceTableIsOneLine()
    ensures OneLineReplacement(ReplaceTable)
  {
    forall g | ReplaceTable(g).Success?
      ensures '\n' !in ReplaceTable(g).value
    {
      ReplaceTableOneLine(g);
    }
  }

  // ---------------------------------------------------------------------
  // Where the pattern matches

  /** `^` matches at position `q` of `s`. */
  predicate LineStart(s: string, q: int, bol: bool)
  {
    (q == 0 && bol) || (0 < q <= |s| && s[q - 1] == '\n')
  }

  /** Some line of `s` starts two or more table lines: the pattern matches
      somewhere in `s`. */
  ghost predicate HasTable(s: string, bol: bool)
  {
    exists q :: 0 <= q < |s| && LineStart(s, q, bol) && |PipeRun(s[q..])| >= 2
  }

  /** A match at the front is a table. */
  lemma MatchIsTable(s: string, bol: bool)
    requires MatchPrefix(s, bol).Some?
    ensures HasTable(s, bol)
  {
    var k := MatchPrefix(s, bol).value;
    assert LineStart(s, k, bol);
  }

  /** With no match at the front, the tables of `s` are those of its tail. */
  lemma HasTableTail(s: string, bol: bool)
    requires |s| > 0 && MatchPrefix(s, bol).None?
    ensures HasTable(s, bol) <==> HasTable(s[1..], s[0] == '\n')
  {
    var t, b := s[1..], s[0] == '\n';
    if HasTable(s, bol) {
      var q :| 0 <= q < |s| && LineStart(s, q, bol) && |PipeRun(s[q..])| >= 2;
      assert q > 0;
      assert t[q - 1..] == s[q..];
      assert LineStart(t, q - 1, b);
    }
    if HasTable(t, b) {
      var q :| 0 <= q < |t| && LineStart(t, q, b) && |PipeRun(t[q..])| >= 2;
      assert t[q..] == s[q + 1..];
      assert LineStart(s, q + 1, bol);
    }
  }

  /** Newlines add up over concatenation. */
  lemma {:induction false} NewlinesConcat(a: string, b: string)
    ensures Newlines(a + b) == Newlines(a) + Newlines(b)
  {
    if |a| == 0 {
      assert a + b == b;
    } else {
      NewlinesConcat(a[1..], b);
      assert (a + b)[1..] == a[1..] + b;
    }
  }

  /** A match holds at least two newlines. */
  lemma MatchNewlines(s: string, k: nat)
    requires k <= |s| && |PipeRun(s[k..])| >= 2
    ensures Newlines(s[..RunEnd(s, k)]) >= 2
  {
    var rows := PipeRun(s[k..]);
    var n := k + |RunText(rows)|;
    PipeRunPrefix(s[k..]);
    PipeRunNewlines(s[k..]);
    NewlinesPrefixAfter(s, k, RunText(rows));
    assert RunEnd(s, k) == n;
  }

  /** The run holds one newline per row. */
  lemma PipeRunNewlines(t: string)
    ensures Newlines(RunText(PipeRun(t))) == |PipeRun(t)|
  {
    PipeRunLines(t);
    RunTextNewlines(PipeRun(t));
  }

  /** The newlines of a prefix that ends in `p` include those of `p`. */
  lemma NewlinesPrefixAfter(s: string, k: nat, p: string)
    requires k <= |s| && StartsWith(s[k..], p)
    ensures Newlines(s[..k + |p|]) >= Newlines(p)
  {
    PrefixAfter(s, k, p);
    NewlinesConcat(s[..k], p);
  }

  /** A text whose part after `k` starts with `p` starts with its first `k`
      characters and then `p`. */
  lemma PrefixAfter(s: string, k: nat, p: string)
    requires k <= |s| && StartsWith(s[k..], p)
    ensures s[..k + |p|] == s[..k] + p
  {
  }

  /** Replacing a part with two or more newlines by one with none. */
  lemma ReplacedNewlines(s: string, n: nat, html: string, rest: string)
    requires n <= |s| && Newlines(s[..n]) >= 2 && '\n' !in html
    requires Newlines(rest) <= Newlines(s[n..])
    ensures Newlines(html + rest) + 2 <= Newlines(s)
  {
    NoNewlines(html);
    NewlinesConcat(html, rest);
    SplitAt(s, n);
    NewlinesConcat(s[..n], s[n..]);
  }

  /** Copying the first character. */
  lemma CopiedNewlines(s: string, rest: string, extra: nat)
    requires |s| > 0 && Newlines(rest) + extra <= Newlines(s[1..])
    ensures Newlines([s[0]] + rest) + extra <= Newlines(s)
  {
    NewlinesConcat([s[0]], rest);
    SplitAt(s, 1);
    assert s[..1] == [s[0]];
    NewlinesConcat([s[0]], s[1..]);
  }

  /** `replace` never puts a newline into the text. */
  ghost predicate OneLineReplacement(replace: string -> Result<string, TableError>)
  {
    forall g :: replace(g).Success? ==> '\n' !in replace(g).value
  }

  /** One step of the scan at a match. */
  lemma SubAtMatch(s: string, bol: bool, replace: string -> Result<string, TableError>, k: nat)
    requires |s| > 0 && MatchPrefix(s, bol) == Some(k)
    ensures var n := RunEnd(s, k);
      n <= |s| && Sub(s, bol, replace) == Glue(replace(s[..n]), Sub(s[n..], true, replace))
  {
  }

  /** One step of the scan where nothing matches. */
  lemma SubNoMatch(s: string, bol: bool, replace: string -> Result<string, TableError>)
    requires |s| > 0 && MatchPrefix(s, bol).None?
    ensures Sub(s, bol, replace) == Glue(Success([s[0]]), Sub(s[1..], s[0] == '\n', replace))
  {
  }

  /** The newlines after a match step, given those after the rest. */
  lemma MatchStepNewlines(s: string, bol: bool, replace: string -> Result<string, TableError>, k: nat)
    requires OneLineReplacement(replace)
    requires |s| > 0 && MatchPrefix(s, bol) == Some(k) && Sub(s, bol, replace).Success?
    requires var n := RunEnd(s, k);
      n <= |s| && Sub(s[n..], true, replace).Success? &&
      Newlines(Sub(s[n..], true, replace).value) <= Newlines(s[n..])
    ensures Newlines(Sub(s, bol, replace).value) + 2 <= Newlines(s)
  {
    var n := RunEnd(s, k);
    SubAtMatch(s, bol, replace, k);
    MatchNewlines(s, k);
    ReplacedNewlines(s, n, replace(s[..n]).value, Sub(s[n..], true, replace).value);
  }

  /** The newlines after a copying step, given those after the rest. */
  lemma CopyStepNewlines(s: string, bol: bool, replace: string -> Result<string, TableError>, extra: nat)
    requires |s| > 0 && MatchPrefix(s, bol).None? && Sub(s, bol, replace).Success?
    requires Sub(s[1..], s[0] == '\n', replace).Success?
    requires Newlines(Sub(s[1..], s[0] == '\n', replace).value) + extra <= Newlines(s[1..])
    ensures Newlines(Sub(s, bol, replace).value) + extra <= Newlines(s)
  {
    SubNoMatch(s, bol, replace);
    CopiedNewlines(s, Sub(s[1..], s[0] == '\n', replace).value, extra);
  }

  /** The scan adds no newline: tables replace lines by HTML without one,
      and everything else is copied. */
  lemma {:induction false} SubNewlines(s: string, bol: bool, replace: string -> Result<string, TableError>)
    requires OneLineReplacement(replace)
    ensures Sub(s, bol, replace).Success? ==> Newlines(Sub(s, bol, replace).value) <= Newlines(s)
    decreases |s|
  {
    if |s| > 0 && Sub(s, bol, replace).Success? {
      match MatchPrefix(s, bol)
      case Some(k) =>
        var n := RunEnd(s, k);
        SubAtMatch(s, bol, replace, k);
        SubNewlines(s[n..], true, replace);
        MatchStepNewlines(s, bol, replace, k);
      case None =>
        SubNoMatch(s, bol, replace);
        SubNewlines(s[1..], s[0] == '\n', replace);
        CopyStepNewlines(s, bol, replace, 0);
    }
  }

  /** A match costs the text at least two newlines. */
  lemma MatchDropsNewlines(s: string, bol: bool, replace: string -> Result<string, TableError>, k: nat)
    requires OneLineReplacement(replace)
    requires |s| > 0 && MatchPrefix(s, bol) == Some(k)
    ensures Sub(s, bol, replace).Success? ==> Newlines(Sub(s, bol, replace).value) + 2 <= Newlines(s)
  {
    if Sub(s, bol, replace).Success? {
      var n := RunEnd(s, k);
      SubAtMatch(s, bol, replace, k);
      SubNewlines(s[n..], true, replace);
      MatchStepNewlines(s, bol, replace, k);
    }
  }

  /** Every table the scan replaces costs the text at least two newlines. */
  lemma {:induction false} TableDropsNewlines(s: string, bol: bool, replace: string -> Result<string, TableError>)
    requires OneLineReplacement(replace) && HasTable(s, bol)
    ensures Sub(s, bol, replace).Success? ==> Newlines(Sub(s, bol, replace).value) + 2 <= Newlines(s)
    decreases |s|
  {
    if Sub(s, bol, replace).Success? {
      match MatchPrefix(s, bol)
      case Some(k) =>
        MatchDropsNewlines(s, bol, replace, k);
      case None =>
        HasTableTail(s, bol);
        SubNoMatch(s, bol, replace);
        TableDropsNewlines(s[1..], s[0] == '\n', replace);
        CopyStepNewlines(s, bol, replace, 2);
    }
  }

  /** A text without tables comes through unchanged. */
  lemma {:induction false} TableFreeUnchanged(s: string, bol: bool, replace: string -> Result<string, TableError>)
    requires !HasTable(s, bol)
    ensures Sub(s, bol, replace) == Success(s)
    decreases |s|
  {
    if |s| > 0 {
      if MatchPrefix(s, bol).Some? {
        MatchIsTable(s, bol);
      }
      HasTableTail(s, bol);
      TableFreeUnchanged(s[1..], s[0] == '\n', replace);
      assert [s[0]] + s[1..] == s;
    }
  }

  /** The text comes back unchanged exactly when it holds no table. */
  lemma ProcessTablesUnchangedIff(s: string)
    ensures ProcessTables(s) == Success(s) <==> !HasTable(s, true)
  {
    if HasTable(s, true) {
      ReplaceTableIsOneLine();
      TableDropsNewlines(s, true, ReplaceTable);
    } else {
      TableFreeUnchanged(s, true, ReplaceTable);
    }
  }

  // ---------------------------------------------------------------------
  // What happens to one table

  /** The greedy run over table lines followed by a line that is not one is
      exactly those lines. */
  lemma {:induction false} PipeRunOfRunText(rows: seq<string>, rest: string)
    requires forall i :: 0 <= i < |rows| ==> PipeLine(rows[i])
    requires !StartsWithPipeLine(rest)
    ensures PipeRun(RunText(rows) + rest) == rows
    decreases |rows|
  {
    if |rows| == 0 {
      assert RunText(rows) + rest == rest;
    } else {
      var t := RunText(rows) + rest;
      var tail := RunText(rows[1..]) + rest;
      var k := |rows[0]|;
      ConcatAssoc(rows[0] + "\n", RunText(rows[1..]), rest);
      LineThen(rows[0], tail);
      IndexOfUnique(t, '\n', k);
      PipeRunOfRunText(rows[1..], rest);
    }
  }

  /** A line, its newline, and what follows. */
  lemma LineThen(line: string, tail: string)
    ensures var t := line + "\n" + tail;
      t[..|line|] == line && t[|line|] == '\n' && t[|line| + 1..] == tail
  {
  }

  /** Rows of a table start with neither a newline nor a blank line. */
  lemma RunTextStart(rows: seq<string>, rest: string)
    requires |rows| >= 1 && PipeLine(rows[0])
    ensures |RunText(rows) + rest| > 0 && (RunText(rows) + rest)[0] != '\n'
    ensures !StartsWith(RunText(rows) + rest, "\n\n")
  {
    var i :| 0 <= i < |rows[0]| && rows[0][i] == '|';
    assert rows[0][0] in rows[0];
    assert (RunText(rows) + rest)[0] == rows[0][0];
  }

  /** Whitespace followed by a table's rows is replaced by the table built
      from those rows, stripped. */
  lemma ReplaceTableOfMatch(p: string, rows: seq<string>)
    requires AllSpaces(p) && |rows| >= 2
    requires forall i :: 0 <= i < |rows| ==> PipeLine(rows[i])
    ensures ReplaceTable(p + RunText(rows)) == Html(BuildTable(Stripped(rows)))
  {
    TableLinesOfMatch(p, rows);
  }

  /** At the start of a line, two or more table lines, taken as far as they
      go, become the HTML of their table, and the scan goes on after them. */
  lemma TableAtLineStart(rows: seq<string>, rest: string)
    requires |rows| >= 2 && forall i :: 0 <= i < |rows| ==> PipeLine(rows[i])
    requires !StartsWithPipeLine(rest)
    ensures Sub(RunText(rows) + rest, true, ReplaceTable) ==
      Glue(Html(BuildTable(Stripped(rows))), Sub(rest, true, ReplaceTable))
  {
    var s := RunText(rows) + rest;
    RunTextStart(rows, rest);
    PipeRunOfRunText(rows, rest);
    assert s[0..] == s;
    assert MatchPrefix(s, true) == Some(0);
    SubAtMatch(s, true, ReplaceTable, 0);
    var n := |RunText(rows)|;
    assert s[..n] == [] + RunText(rows) && s[n..] == rest;
    ReplaceTableOfMatch([], rows);
  }

  /** One step of the scan at a match whose rows are known, with the
      matched text and what follows it named. */
  lemma SubAtKnownMatch(s: string, bol: bool, replace: string -> Result<string, TableError>, k: nat,
                        rows: seq<string>, matched: string, rest: string)
    requires |s| > 0 && MatchPrefix(s, bol) == Some(k) && PipeRun(s[k..]) == rows
    requires s == matched + rest && |matched| == k + |RunText(rows)|
    ensures Sub(s, bol, replace) == Glue(replace(matched), Sub(rest, true, replace))
  {
    SubAtMatch(s, bol, replace, k);
    var n := k + |RunText(rows)|;
    assert s[..n] == matched && s[n..] == rest;
  }

  /** The `\n\n` alternative matches in front of a table's rows. */
  lemma BlankLineMatches(rows: seq<string>, rest: string, bol: bool)
    requires |rows| >= 2 && forall i :: 0 <= i < |rows| ==> PipeLine(rows[i])
    requires !StartsWithPipeLine(rest)
    ensures var s := "\n\n" + (RunText(rows) + rest);
      MatchPrefix(s, bol) == Some(2) && PipeRun(s[2..]) == rows
  {
    var s := "\n\n" + (RunText(rows) + rest);
    assert s[2..] == RunText(rows) + rest;
    PipeRunOfRunText(rows, rest);
    assert s[..2] == "\n\n";
  }

  /** A match made of a prefix `p` and whole rows is replaced as one piece,
      and the scan resumes at the start of the line after it. */
  lemma SubAfterPrefix(s: string, bol: bool, replace: string -> Result<string, TableError>,
                       p: string, rows: seq<string>, rest: string)
    requires s == p + (RunText(rows) + rest)
    requires |s| > 0 && MatchPrefix(s, bol) == Some(|p|) && PipeRun(s[|p|..]) == rows
    ensures Sub(s, bol, replace) == Glue(replace(p + RunText(rows)), Sub(rest, true, replace))
  {
    ConcatAssoc(p, RunText(rows), rest);
    SubAtKnownMatch(s, bol, replace, |p|, rows, p + RunText(rows), rest);
  }

  /** Behind a blank line, two or more table lines are replaced together
      with the blank line, whatever `replace` makes of them. */
  lemma BlankLineStep(rows: seq<string>, rest: string, bol: bool, replace: string -> Result<string, TableError>)
    requires |rows| >= 2 && forall i :: 0 <= i < |rows| ==> PipeLine(rows[i])
    requires !StartsWithPipeLine(rest)
    ensures Sub("\n\n" + (RunText(rows) + rest), bol, replace) ==
      Glue(replace("\n\n" + RunText(rows)), Sub(rest, true, replace))
  {
    BlankLineMatches(rows, rest, bol);
    SubAfterPrefix("\n\n" + (RunText(rows) + rest), bol, replace, "\n\n", rows, rest);
  }

  /** A table behind a blank line takes the blank line with it: both
      newlines go, wherever the scan stands. */
  lemma TableAfterBlankLine(rows: seq<string>, rest: string, bol: bool)
    requires |rows| >= 2 && forall i :: 0 <= i < |rows| ==> PipeLine(rows[i])
    requires !StartsWithPipeLine(rest)
    ensures Sub("\n\n" + (RunText(rows) + rest), bol, ReplaceTable) ==
      Glue(Html(BuildTable(Stripped(rows))), Sub(rest, true, ReplaceTable))
  {
    BlankLineIsSpace();
    ReplaceTableOfMatch("\n\n", rows);
    BlankLineStep(rows, rest, bol, ReplaceTable);
  }

  lemma BlankLineIsSpace()
    ensures AllSpaces("\n\n")
  {
    var b := "\n\n";
    assert b[0] == '\n' && b[1] == '\n';
  }

  // ---------------------------------------------------------------------
  // Examples

  /** A part of a text has no more newlines than the text. */
  lemma NewlinesOfParts(s: string, k: nat)
    requires k <= |s|
    ensures Newlines(s[..k]) <= Newlines(s) && Newlines(s[k..]) <= Newlines(s)
  {
    SplitAt(s, k);
    NewlinesConcat(s[..k], s[k..]);
  }

  /** Text with fewer than two newlines holds no table: a table needs two
      newline-terminated lines. */
  lemma FewNewlinesNoTable(s: string, bol: bool)
    requires Newlines(s) < 2
    ensures !HasTable(s, bol)
  {
    if HasTable(s, bol) {
      var q :| 0 <= q < |s| && LineStart(s, q, bol) && |PipeRun(s[q..])| >= 2;
      MatchNewlines(s, q);
      NewlinesOfParts(s, RunEnd(s, q));
      assert false;
    }
  }

  /** A table whose separator is the last line, with no newline after it,
      is not matched: the text comes back as it is. */
  lemma UnterminatedSeparatorUnchanged()
    ensures ProcessTables("A|B\n--|--") == Success("A|B\n--|--")
  {
    var s := "A|B\n--|--";
    assert Newlines(s) == 1;
    FewNewlinesNoTable(s, true);
    ProcessTablesUnchangedIff(s);
  }

  /** Three pieces joined by `|`. */
  lemma JoinThree(a: string, b: string, c: string)
    ensures Join([a, b, c], "|") == a + "|" + b + "|" + c
  {
    var bar := "|";
    assert [a, b, c][1..] == [b, c];
    assert [b, c][1..] == [c];
    assert Join([b, c], bar) == b + bar + c;
    assert Join([a, b, c], bar) == a + bar + (b + bar + c);
    ConcatAssoc(a + bar, b + bar, c);
    ConcatAssoc(a + bar, b, bar);
  }

  /** A segment with no whitespace at its ends is read by its end
      characters alone. */
  lemma BareSegmentAlign(g: string)
    requires |g| > 0 && !IsSpace(g[0]) && !IsSpace(g[|g| - 1])
    ensures SegmentAlign(g) == (if g[0] == ':' && g[|g| - 1] == ':' then Center
                                else if g[0] != ':' && g[|g| - 1] == ':' then Right
                                else Left)
  {
    StripFixed(g);
  }

  /** A character a one-character cell keeps as it is. */
  predicate PlainChar(c: char)
  {
    c != '|' && c != '\n' && !IsSpace(c)
  }

  /** A row `x|y|z` of three plain characters. */
  predicate PlainRow(row: string)
  {
    |row| == 5 && row[1] == '|' && row[3] == '|'
    && PlainChar(row[0]) && PlainChar(row[2]) && PlainChar(row[4])
  }

  /** A plain row gives one cell per character, aligned in order. */
  lemma PlainRowCells(row: string, aligns: seq<Align>)
    requires PlainRow(row) && aligns == [Left, Center, Right]
    ensures RowCells(Columns(row), aligns)
         == Success([Cell([row[0]], Left), Cell([row[2]], Center), Cell([row[4]], Right)])
  {
    var a, b, c := row[0], row[2], row[4];
    var texts := [[a], [b], [c]];
    JoinThree([a], [b], [c]);
    assert Join(texts, "|") == row;
    assert forall i :: 0 <= i < 3 ==> CellText(texts[i]);
    RowCellsOfRow(texts, aligns);
    var cells := Aligned(texts, aligns);
    assert |cells| == 3;
    assert cells[0] == Cell([a], Left) && cells[1] == Cell([b], Center) && cells[2] == Cell([c], Right);
    ThreeItems(cells, Cell([a], Left), Cell([b], Center), Cell([c], Right));
  }

  lemma ThreeItems<T>(s: seq<T>, x: T, y: T, z: T)
    requires |s| == 3 && s[0] == x && s[1] == y && s[2] == z
    ensures s == [x, y, z]
  {
  }

  /** A plain row is a `|` line. */
  lemma PlainRowPiped(row: string)
    requires PlainRow(row)
    ensures PipeLine(row)
  {
    assert forall i :: 0 <= i < |row| ==> row[i] != '\n';
  }

  /** A plain row is kept by stripping. */
  lemma PlainRowKept(row: string)
    requires PlainRow(row)
    ensures Strip(row) == row
  {
    StripFixed(row);
  }

  /** Three rows that stripping keeps are their own stripped lines. */
  lemma StrippedKept3(rows: seq<string>)
    requires |rows| == 3
    requires Strip(rows[0]) == rows[0] && Strip(rows[1]) == rows[1] && Strip(rows[2]) == rows[2]
    ensures Stripped(rows) == rows
  {
    ThreeItems(Stripped(rows), rows[0], rows[1], rows[2]);
  }

  /** Three `|` lines. */
  lemma PipeLines3(rows: seq<string>)
    requires |rows| == 3 && PipeLine(rows[0]) && PipeLine(rows[1]) && PipeLine(rows[2])
    ensures forall i :: 0 <= i < |rows| ==> PipeLine(rows[i])
  {
  }

  /** The separator `:--|:--:|--:` is cut into its three segments. */
  lemma ExampleSegments(line: string)
    requires line == ":--|:--:|--:"
    ensures Split(line, '|') == [":--", ":--:", "--:"]
  {
    var segs := [":--", ":--:", "--:"];
    JoinThree(segs[0], segs[1], segs[2]);
    assert Join(segs, "|") == line;
    assert forall i :: 0 <= i < 3 ==> '|' !in segs[i];
    SplitJoin(segs, '|');
  }

  /** Its segments align left, centre and right. */
  lemma ExampleSegmentAligns(a: string, b: string, c: string)
    requires a == ":--" && b == ":--:" && c == "--:"
    ensures SegmentAlign(a) == Left && SegmentAlign(b) == Center && SegmentAlign(c) == Right
  {
    BareSegmentAlign(a);
    BareSegmentAlign(b);
    BareSegmentAlign(c);
  }

  /** The separator `:--|:--:|--:` aligns left, centre, right. */
  lemma ExampleAlignments(line: string)
    requires line == ":--|:--:|--:"
    ensures Alignments(line) == [Left, Center, Right]
  {
    ExampleSegments(line);
    var segs := Split(line, '|');
    ExampleSegmentAligns(segs[0], segs[1], segs[2]);
    var r := Alignments(line);
    ThreeItems(r, Left, Center, Right);
  }

  /** The separator `:--|:--:|--:` is a `|` line that stripping keeps. */
  lemma ExampleSeparatorKept(line: string)
    requires line == ":--|:--:|--:"
    ensures PipeLine(line) && Strip(line) == line
  {
    assert line[3] == '|';
    assert forall i :: 0 <= i < |line| ==> line[i] != '\n';
    StripFixed(line);
  }

  /** A text that is nothing but one table becomes that table's HTML. */
  lemma WholeTable(rows: seq<string>, t: Table)
    requires |rows| >= 2 && forall i :: 0 <= i < |rows| ==> PipeLine(rows[i])
    requires BuildTable(Stripped(rows)) == Success(t)
    ensures ProcessTables(RunText(rows)) == Success(TableHtml(t))
  {
    var html := TableHtml(t);
    assert Html(BuildTable(Stripped(rows))) == Success(html);
    TableThenNothing(rows, RunText(rows), Success(html));
    GlueNothing(html);
  }

  /** Nothing glued after a piece of output leaves it as it is. */
  lemma GlueNothing(html: string)
    ensures Glue(Success(html), Success([])) == Success(html)
  {
    assert html + [] == html;
  }

  /** The table at the front of a text with nothing after it. */
  lemma TableThenNothing(rows: seq<string>, s: string, html: Result<string, TableError>)
    requires |rows| >= 2 && forall i :: 0 <= i < |rows| ==> PipeLine(rows[i])
    requires s == RunText(rows) && html == Html(BuildTable(Stripped(rows)))
    ensures ProcessTables(s) == Glue(html, Success([]))
  {
    TableAtLineStart(rows, []);
    assert s + [] == s;
  }

  /** Two plain rows around a `|` separator are three `|` lines. */
  lemma ThreeRowsPiped(rows: seq<string>)
    requires |rows| == 3 && PlainRow(rows[0]) && PlainRow(rows[2]) && PipeLine(rows[1])
    ensures forall i :: 0 <= i < |rows| ==> PipeLine(rows[i])
  {
    PlainRowPiped(rows[0]);
    PlainRowPiped(rows[2]);
    PipeLines3(rows);
  }

  /** Two plain rows around a stripped separator are kept by stripping. */
  lemma ThreeRowsKept(rows: seq<string>)
    requires |rows| == 3 && PlainRow(rows[0]) && PlainRow(rows[2]) && Strip(rows[1]) == rows[1]
    ensures Stripped(rows) == rows
  {
    PlainRowKept(rows[0]);
    PlainRowKept(rows[2]);
    StrippedKept3(rows);
  }

  /** The table of two plain rows around a separator that aligns left,
      centre and right. */
  lemma PlainRowsTable(rows: seq<string>, header: seq<Cell>, row: seq<Cell>)
    requires |rows| == 3 && PlainRow(rows[0]) && PlainRow(rows[2])
    requires Alignments(rows[1]) == [Left, Center, Right]
    requires header == [Cell([rows[0][0]], Left), Cell([rows[0][2]], Center), Cell([rows[0][4]], Right)]
    requires row == [Cell([rows[2][0]], Left), Cell([rows[2][2]], Center), Cell([rows[2][4]], Right)]
    ensures BuildTable(rows) == Success(Table(header, [row]))
  {
    PlainRowCells(rows[0], Alignments(rows[1]));
    PlainRowCells(rows[2], Alignments(rows[1]));
    BuildTable3(rows, header, row);
  }

  /** Three lines whose outer two have cells under the alignments of the
      middle one make a table of one body row. */
  lemma BuildTable3(rows: seq<string>, header: seq<Cell>, row: seq<Cell>)
    requires |rows| == 3
    requires RowCells(Columns(rows[0]), Alignments(rows[1])) == Success(header)
    requires RowCells(Columns(rows[2]), Alignments(rows[1])) == Success(row)
    ensures BuildTable(rows) == Success(Table(header, [row]))
  {
    BuildTableOfRows(rows, header, [row]);
  }

  /** The rows of the example. */
  lemma ExampleRows(rows: seq<string>)
    requires rows == ["A|B|C", ":--|:--:|--:", "1|2|3"]
    ensures PlainRow(rows[0]) && PlainRow(rows[2])
    ensures RunText(rows) == "A|B|C\n:--|:--:|--:\n1|2|3\n"
  {
    assert RunText(rows[2..]) == "1|2|3\n";
    assert RunText(rows[1..]) == ":--|:--:|--:\n1|2|3\n";
  }

  /** The example's rows are `|` lines. */
  lemma ExamplePiped(rows: seq<string>)
    requires rows == ["A|B|C", ":--|:--:|--:", "1|2|3"]
    ensures forall i :: 0 <= i < |rows| ==> PipeLine(rows[i])
  {
    ExampleRows(rows);
    ExampleSeparatorKept(rows[1]);
    ThreeRowsPiped(rows);
  }

  /** The example's rows build the table. */
  lemma ExampleBuilt(rows: seq<string>, header: seq<Cell>, row: seq<Cell>)
    requires rows == ["A|B|C", ":--|:--:|--:", "1|2|3"]
    requires header == [Cell("A", Left), Cell("B", Center), Cell("C", Right)]
    requires row == [Cell("1", Left), Cell("2", Center), Cell("3", Right)]
    ensures BuildTable(Stripped(rows)) == Success(Table(header, [row]))
  {
    ExampleRows(rows);
    ExampleAlignments(rows[1]);
    ExampleSeparatorKept(rows[1]);
    ThreeRowsKept(rows);
    PlainRowsTable(rows, header, row);
  }

  /** `A|B|C`, `:--|:--:|--:`, `1|2|3`: one table, header cells left, centre
      and right aligned, the body row aligned the same way, and no newline
      after it. */
  lemma AlignedTableExample()
    ensures ProcessTables("A|B|C\n:--|:--:|--:\n1|2|3\n")
         == Success(TableHtml(Table([Cell("A", Left), Cell("B", Center), Cell("C", Right)],
                                    [[Cell("1", Left), Cell("2", Center), Cell("3", Right)]])))
  {
    var rows := ["A|B|C", ":--|:--:|--:", "1|2|3"];
    var header := [Cell("A", Left), Cell("B", Center), Cell("C", Right)];
    var row := [Cell("1", Left), Cell("2", Center), Cell("3", Right)];
    ExampleRows(rows);
    ExamplePiped(rows);
    ExampleBuilt(rows, header, row);
    WholeTable(rows, Table(header, [row]));
  }
}

=== FILE: text.dfy ===
/** The few pieces of Python string behaviour the transformations rely on:
    `str.strip()`, `str.split(c)`, `sep.join(parts)`, `str(n)` and the
    character classes `\s` and `\d`. */
module Text {

  /** Python's `str.isspace()`; the regex class `\s` on `str` patterns uses
      the same table. */
  predicate IsSpace(c: char)
  {
    c == ' ' || '\t' <= c <= '\r' || '\U{1C}' <= c <= '\U{1F}'
    || c == '\U{85}' || c == '\U{A0}' || c == '\U{1680}'
    || '\U{2000}' <= c <= '\U{200A}' || c == '\U{2028}' || c == '\U{2029}'
    || c == '\U{202F}' || c == '\U{205F}' || c == '\U{3000}'
  }

  /** The regex class `\d`, restricted to ASCII digits. */
  predicate IsDigit(c: char)
  {
    '0' <= c <= '9'
  }

  predicate AllDigits(s: string)
  {
    forall i :: 0 <= i < |s| ==> IsDigit(s[i])
  }

  predicate AllSpaces(s: string)
  {
    forall i :: 0 <= i < |s| ==> IsSpace(s[i])
  }

  predicate StartsWith(s: string, prefix: string)
  {
    |prefix| <= |s| && s[..|prefix|] == prefix
  }

  /** `pat` occurs somewhere in `s`. */
  ghost predicate Occurs(s: string, pat: string)
  {
    exists i :: 0 <= i <= |s| && StartsWith(s[i..], pat)
  }

  /** Concatenation is associative; stated once, away from any context that
      would make the solver look inside the elements. */
  lemma ConcatAssoc<T>(a: seq<T>, b: seq<T>, c: seq<T>)
    ensures (a + b) + c == a + (b + c)
  {
  }

  // ---------------------------------------------------------------------
  // str.strip()

  /** `s` without its leading whitespace. */
  function TrimLeft(s: string): string
    decreases |s|
  {
    if |s| > 0 && IsSpace(s[0]) then TrimLeft(s[1..]) else s
  }

  /** `TrimLeft` drops a run of whitespace from the front and stops at the
      first character that is not whitespace. */
  lemma {:induction false} TrimLeftSpec(s: string)
    ensures |TrimLeft(s)| <= |s|
    ensures TrimLeft(s) == s[|s| - |TrimLeft(s)|..]
    ensures AllSpaces(s[..|s| - |TrimLeft(s)|])
    ensures TrimLeft(s) == [] || !IsSpace(TrimLeft(s)[0])
    decreases |s|
  {
    if |s| > 0 && IsSpace(s[0]) {
      TrimLeftSpec(s[1..]);
      var r := TrimLeft(s[1..]);
      var k := |s| - |r|;
      assert s[1..][k - 1..] == s[k..];
      forall j | 0 <= j < k
        ensures IsSpace(s[..k][j])
      {
        if j > 0 {
          assert s[..k][j] == s[1..][..k - 1][j - 1];
        }
      }
    }
  }

  /** `s` without its trailing whitespace. */
  function TrimRight(s: string): string
    decreases |s|
  {
    if |s| > 0 && IsSpace(s[|s| - 1]) then TrimRight(s[..|s| - 1]) else s
  }

  /** `TrimRight` drops a run of whitespace from the end and stops at the
      last character that is not whitespace. */
  lemma {:induction false} TrimRightSpec(s: string)
    ensures |TrimRight(s)| <= |s|
    ensures TrimRight(s) == s[..|TrimRight(s)|]
    ensures AllSpaces(s[|TrimRight(s)|..])
    ensures TrimRight(s) == [] || !IsSpace(TrimRight(s)[|TrimRight(s)| - 1])
    decreases |s|
  {
    if |s| > 0 && IsSpace(s[|s| - 1]) {
      var n := |s| - 1;
      TrimRightSpec(s[..n]);
      var r := TrimRight(s[..n]);
      assert s[..n][..|r|] == s[..|r|];
      forall j | |r| <= j < |s|
        ensures IsSpace(s[j])
      {
        if j < n {
          assert s[j] == s[..n][|r|..][j - |r|];
        }
      }
      assert forall j :: 0 <= j < |s| - |r| ==> s[|r|..][j] == s[|r| + j];
    }
  }

  /** Python's `s.strip()`. */
  function Strip(s: string): string
  {
    TrimRight(TrimLeft(s))
  }

  /** What strip keeps neither begins nor ends with whitespace. */
  lemma StripEnds(s: string)
    ensures Strip(s) == [] || (!IsSpace(Strip(s)[0]) && !IsSpace(Strip(s)[|Strip(s)| - 1]))
  {
    var l := TrimLeft(s);
    var r := TrimRight(l);
    TrimLeftSpec(s);
    TrimRightSpec(l);
    if r != [] {
      assert r[0] == l[0];
    }
  }

  lemma TrimLeftOfNonSpaceStart(s: string)
    requires s == [] || !IsSpace(s[0])
    ensures TrimLeft(s) == s
  {
  }

  lemma TrimRightOfNonSpaceEnd(s: string)
    requires s == [] || !IsSpace(s[|s| - 1])
    ensures TrimRight(s) == s
  {
  }

  /** A string that neither begins nor ends with whitespace is its own strip. */
  lemma StripFixed(s: string)
    requires s == [] || (!IsSpace(s[0]) && !IsSpace(s[|s| - 1]))
    ensures Strip(s) == s
  {
  }

  /** Stripping twice is stripping once. */
  lemma StripIdempotent(s: string)
    ensures Strip(Strip(s)) == Strip(s)
  {
    StripEnds(s);
    StripFixed(Strip(s));
  }

  /** Leading whitespace up to a character that is not whitespace goes. */
  lemma {:induction false} TrimLeftConcat(a: string, b: string)
    requires !AllSpaces(a)
    ensures TrimLeft(a + b) == TrimLeft(a) + b
    decreases |a|
  {
    if IsSpace(a[0]) {
      assert (a + b)[1..] == a[1..] + b;
      assert !AllSpaces(a[1..]) by {
        var i :| 0 <= i < |a| && !IsSpace(a[i]);
        assert a[1..][i - 1] == a[i];
      }
      TrimLeftConcat(a[1..], b);
    } else {
      assert (a + b)[0] == a[0];
    }
  }

  /** Trailing whitespace back to a character that is not whitespace goes. */
  lemma {:induction false} TrimRightConcat(a: string, b: string)
    requires !AllSpaces(b)
    ensures TrimRight(a + b) == a + TrimRight(b)
    decreases |b|
  {
    var n := |b| - 1;
    if IsSpace(b[n]) {
      assert (a + b)[..|a + b| - 1] == a + b[..n];
      assert !AllSpaces(b[..n]) by {
        var i :| 0 <= i < |b| && !IsSpace(b[i]);
        assert i < n && b[..n][i] == b[i];
      }
      TrimRightConcat(a, b[..n]);
    } else {
      assert (a + b)[|a + b| - 1] == b[n];
    }
  }

  /** A run of whitespace in front changes nothing for `TrimLeft`. */
  lemma {:induction false} TrimLeftSpacePrefix(p: string, x: string)
    requires AllSpaces(p)
    ensures TrimLeft(p + x) == TrimLeft(x)
    decreases |p|
  {
    if |p| > 0 {
      assert (p + x)[0] == p[0];
      assert (p + x)[1..] == p[1..] + x;
      TrimLeftSpacePrefix(p[1..], x);
    } else {
      assert p + x == x;
    }
  }

  /** A run of whitespace at the end changes nothing for `TrimRight`. */
  lemma {:induction false} TrimRightSpaceSuffix(x: string, q: string)
    requires AllSpaces(q)
    ensures TrimRight(x + q) == TrimRight(x)
    decreases |q|
  {
    if |q| > 0 {
      var n := |q| - 1;
      assert (x + q)[|x + q| - 1] == q[n];
      assert (x + q)[..|x + q| - 1] == x + q[..n];
      TrimRightSpaceSuffix(x, q[..n]);
    } else {
      assert x + q == x;
    }
  }

  /** Whitespace around a core that neither begins nor ends with whitespace
      is exactly what strip removes. */
  lemma StripPadded(p: string, core: string, q: string)
    requires AllSpaces(p) && AllSpaces(q)
    requires core == [] || (!IsSpace(core[0]) && !IsSpace(core[|core| - 1]))
    ensures Strip(p + core + q) == core
  {
    ConcatAssoc(p, core, q);
    TrimLeftSpacePrefix(p, core + q);
    if core == [] {
      assert core + q == q;
      TrimLeftSpacePrefix(q, []);
      assert q + [] == q;
    } else {
      TrimLeftOfNonSpaceStart(core + q);
      TrimRightSpaceSuffix(core, q);
      TrimRightOfNonSpaceEnd(core);
    }
  }

  /** Every string is its strip with whitespace around it. */
  lemma StripSplits(s: string) returns (p: string, q: string)
    ensures AllSpaces(p) && AllSpaces(q) && s == p + Strip(s) + q
  {
    var l := TrimLeft(s);
    var r := TrimRight(l);
    TrimLeftSpec(s);
    TrimRightSpec(l);
    p, q := s[..|s| - |l|], l[|r|..];
    SplitAt(s, |s| - |l|);
    SplitAt(l, |r|);
    ConcatAssoc(p, r, q);
  }

  lemma SplitAt<T>(s: seq<T>, i: nat)
    requires i <= |s|
    ensures s == s[..i] + s[i..]
  {
  }

  /** Strip keeps every character that is not whitespace and adds none. */
  lemma StripKeeps(s: string, c: char)
    requires !IsSpace(c)
    ensures c in Strip(s) <==> c in s
  {
    var p, q := StripSplits(s);
    assert c !in p && c !in q;
  }

  /** Strip only removes characters. */
  lemma StripRemovesOnly(s: string)
    ensures multiset(Strip(s)) <= multiset(s)
  {
    var p, q := StripSplits(s);
    assert multiset(s) == multiset(p) + multiset(Strip(s)) + multiset(q);
  }

  /** A character absent from `s` is absent from its strip. */
  lemma StripKeepsOut(s: string, c: char)
    requires c !in s
    ensures c !in Strip(s)
  {
    StripRemovesOnly(s);
    assert multiset(s)[c] == 0;
  }

  /** Whitespace in front does not change the strip. */
  lemma StripSpacePrefix(p: string, x: string)
    requires AllSpaces(p)
    ensures Strip(p + x) == Strip(x)
  {
    TrimLeftSpacePrefix(p, x);
  }

  /** Whitespace at the end does not change the strip. */
  lemma StripSpaceSuffix(x: string, q: string)
    requires AllSpaces(q)
    ensures Strip(x + q) == Strip(x)
  {
    if AllSpaces(x) {
      assert AllSpaces(x + q);
      TrimLeftSpacePrefix(x + q, []);
      TrimLeftSpacePrefix(x, []);
      assert x + q + [] == x + q && x + [] == x;
    } else {
      TrimLeftConcat(x, q);
      TrimRightSpaceSuffix(TrimLeft(x), q);
    }
  }

  /** Stripping after removing the leading whitespace is stripping. */
  lemma StripOfTrimmedLeft(s: string)
    ensures Strip(TrimLeft(s)) == Strip(s)
  {
    var l := TrimLeft(s);
    TrimLeftSpec(s);
    var p := s[..|s| - |l|];
    SplitAt(s, |s| - |l|);
    StripSpacePrefix(p, l);
  }

  /** Stripping after removing the trailing whitespace is stripping. */
  lemma StripOfTrimmedRight(s: string)
    ensures Strip(TrimRight(s)) == Strip(s)
  {
    var r := TrimRight(s);
    TrimRightSpec(s);
    var q := s[|r|..];
    SplitAt(s, |r|);
    StripSpaceSuffix(r, q);
  }

  // ---------------------------------------------------------------------
  // str.split(c) and sep.join(parts)

  /** Position of the first `c` in `s`. */
  function IndexOf(s: string, c: char): (k: nat)
    requires c in s
    ensures k < |s| && s[k] == c && c !in s[..k]
  {
    if s[0] == c then 0 else
      var k := 1 + IndexOf(s[1..], c);
      assert s[..k] == [s[0]] + s[1..][..k - 1];
      k
  }

  lemma IndexOfUnique(s: string, c: char, k: nat)
    requires k < |s| && s[k] == c && c !in s[..k]
    ensures IndexOf(s, c) == k
  {
  }

  /** Python's `s.split(sep)` for a one-character separator. */
  function Split(s: string, sep: char): (parts: seq<string>)
    ensures |parts| >= 1
    decreases |s|
  {
    if sep in s then
      var k := IndexOf(s, sep);
      [s[..k]] + Split(s[k + 1..], sep)
    else
      [s]
  }

  /** No part of a split holds the separator. */
  lemma {:induction false} SplitPartsFree(s: string, sep: char)
    ensures forall i :: 0 <= i < |Split(s, sep)| ==> sep !in Split(s, sep)[i]
    decreases |s|
  {
    if sep in s {
      var k := IndexOf(s, sep);
      SplitPartsFree(s[k + 1..], sep);
      assert Split(s, sep)[1..] == Split(s[k + 1..], sep);
    }
  }

  /** Python's `sep.join(parts)`. */
  function Join(parts: seq<string>, sep: string): string
  {
    if |parts| == 0 then []
    else if |parts| == 1 then parts[0]
    else parts[0] + sep + Join(parts[1..], sep)
  }

  /** Splitting at a separator the left part does not contain. */
  lemma SplitAtFirst(a: string, sep: char, b: string)
    requires sep !in a
    ensures Split(a + [sep] + b, sep) == [a] + Split(b, sep)
  {
    var s := a + [sep] + b;
    assert s[|a|] == sep && s[..|a|] == a;
    IndexOfUnique(s, sep, |a|);
    assert s[|a| + 1..] == b;
  }

  /** Split maps a separator in the text to a boundary in the parts. */
  lemma {:induction false} SplitConcat(a: string, sep: char, b: string)
    ensures Split(a + [sep] + b, sep) == Split(a, sep) + Split(b, sep)
    decreases |a|
  {
    if sep in a {
      var k := IndexOf(a, sep);
      var p, rest := a[..k], a[k + 1..];
      var t := rest + [sep] + b;
      assert a == p + [sep] + rest;
      assert a + [sep] + b == p + [sep] + t;
      calc {
        Split(a + [sep] + b, sep);
        { SplitAtFirst(p, sep, t); }
        [p] + Split(t, sep);
        { SplitConcat(rest, sep, b); }
        [p] + (Split(rest, sep) + Split(b, sep));
        { SplitAtFirst(p, sep, rest); }
        Split(a, sep) + Split(b, sep);
      }
    } else {
      SplitAtFirst(a, sep, b);
    }
  }

  /** There is one more part than there are separators. */
  lemma {:induction false} SplitCount(s: string, sep: char)
    ensures |Split(s, sep)| == multiset(s)[sep] + 1
    decreases |s|
  {
    if sep in s {
      var k := IndexOf(s, sep);
      assert s == s[..k] + [sep] + s[k + 1..];
      assert multiset(s) == multiset(s[..k]) + multiset{sep} + multiset(s[k + 1..]);
      assert sep !in multiset(s[..k]);
      SplitCount(s[k + 1..], sep);
    } else {
      assert sep !in multiset(s);
    }
  }

  /** Joining the parts of a split gives back the text. */
  lemma {:induction false} JoinSplit(s: string, sep: char)
    ensures Join(Split(s, sep), [sep]) == s
    decreases |s|
  {
    if sep in s {
      var k := IndexOf(s, sep);
      JoinSplit(s[k + 1..], sep);
      assert s == s[..k] + [sep] + s[k + 1..];
    }
  }

  /** Splitting a join of separator-free parts gives back the parts. */
  lemma {:induction false} SplitJoin(parts: seq<string>, sep: char)
    requires |parts| >= 1
    requires forall i :: 0 <= i < |parts| ==> sep !in parts[i]
    ensures Split(Join(parts, [sep]), sep) == parts
  {
    if |parts| == 1 {
    } else {
      SplitJoin(parts[1..], sep);
      SplitAtFirst(parts[0], sep, Join(parts[1..], [sep]));
      assert [parts[0]] + parts[1..] == parts;
    }
  }

  /** Joining one more part appends the separator and the part. */
  lemma {:induction false} JoinSnoc(parts: seq<string>, last: string, sep: string)
    requires |parts| >= 1
    ensures Join(parts + [last], sep) == Join(parts, sep) + sep + last
    decreases |parts|
  {
    var all := parts + [last];
    assert all[1..] == parts[1..] + [last];
    if |parts| > 1 {
      JoinSnoc(parts[1..], last, sep);
    }
  }

  /** A character absent from the text is absent from every part of its split. */
  lemma {:induction false} SplitKeepsOut(s: string, sep: char, c: char)
    requires c !in s
    ensures forall i :: 0 <= i < |Split(s, sep)| ==> c !in Split(s, sep)[i]
    decreases |s|
  {
    if sep in s {
      var k := IndexOf(s, sep);
      SplitKeepsOut(s[k + 1..], sep, c);
      assert c !in s[k + 1..] && c !in s[..k];
    }
  }

  // ---------------------------------------------------------------------
  // str(n)

  function DigitChar(d: nat): (c: char)
    requires d < 10
    ensures IsDigit(c)
  {
    (d + '0' as int) as char
  }

  function DigitValue(c: char): (d: nat)
    requires IsDigit(c)
    ensures d < 10 && DigitChar(d) == c
  {
    c as int - '0' as int
  }

  /** Python's `str(n)` for a natural number: decimal digits, no leading zero. */
  function NatToString(n: nat): (r: string)
    ensures |r| >= 1 && AllDigits(r)
    ensures r[0] == '0' <==> n == 0
  {
    if n < 10 then [DigitChar(n)] else NatToString(n / 10) + [DigitChar(n % 10)]
  }

  /** Value of a string of decimal digits. */
  function DigitsValue(s: string): nat
    requires AllDigits(s)
  {
    if |s| == 0 then 0 else 10 * DigitsValue(s[..|s| - 1]) + DigitValue(s[|s| - 1])
  }

  /** Reading back the decimal form gives the number. */
  lemma {:induction false} NatToStringRoundTrip(n: nat)
    ensures DigitsValue(NatToString(n)) == n
  {
    if n >= 10 {
      var r := NatToString(n);
      assert r[..|r| - 1] == NatToString(n / 10);
      NatToStringRoundTrip(n / 10);
    }
  }
}

=== FILE: wrappers.dfy ===
/** Optional values and results with an error side, used where the Python
    code has `None` or raises. */
module Wrappers {

  datatype Option<+T> = None | Some(value: T)

  datatype Result<+T, +E> = Success(value: T) | Failure(error: E)
}
